=== FILE: README.md ===
# Solidity to Tact transpiler, modelled in Dafny

This project models `backend/transpiler.py`, the transpiler that turns a
Solidity contract or interface into Tact source text. The transpiler is a
pipeline of two pure stages:

- `SolidityParser` strips comments from the source text. It then decides
  whether the text declares an `interface` or a `contract`, and fills a flat
  record: a name, state variables, and functions with parameters, return type,
  body and modifiers.
- `TactGenerator` renders that record as a list of Tact lines. An interface
  becomes a `trait`. A contract becomes its `message` types, then the contract
  with its fields and `init()`, then one `receive` handler or `get fun` getter
  per function. The lines are joined with newlines.

The modules follow the structure of the program:

| module | file | models |
|---|---|---|
| `Wrappers` | `wrappers.dfy` | `Option`, standing for Python's `None` |
| `Text` | `text.dfy` | the `str` methods the transpiler relies on (`strip`, `split()`, `split(sep)`, `join`, `replace`, substring `in`, `capitalize`) |
| `Patterns` | `patterns.dfy` | the small regular expressions: `KEYWORD\s+(\w+)` with `search`/`findall`, `\bNAME\b` substitution, the `require(...)` rewrite |
| `Comments` | `comments.dfy` | `_remove_comments` |
| `SolidityParser` | `parser.dfy` | the record, `_parse_params`, `_parse_returns`, `_extract_modifiers`, `parse_solidity` |
| `TypeMap` | `types.dfy` | `TYPE_MAPPING`, `_convert_type` |
| `FunctionBody` | `body.dfy` | `_convert_function_body` |
| `TactGenerator` | `generator.dfy` | every `_generate_*`, `generate_tact`, `transpile_solidity_to_tact` |

Each `lines.extend(...)` loop of the generator is modelled as the
concatenation (`Flatten`) of one block of lines per item. `Offset(blocks, k)`
is the index at which block `k` starts. The layout lemmas place each emitted
line at its index in the output.

Some behaviour of the code is kept as written:

- When the text declares neither an interface nor a contract, the code goes on
  with an empty record and emits a near-empty contract named `""`; the code
  does not reject such input. The model does the same: `ParseSolidity` returns
  `Model(false, "", [], [])`.
- `_parse_returns` cuts the clause down to its last token only when it holds
  the space character `' '`. A clause such as `"uint\tx"` holds a tab but no
  space, so it is kept whole, tab included.
- A parameter that has the same name as a state variable is qualified twice.
  Every whole-word `x` first becomes `self.x`, and then the `x` inside that
  becomes `msg.x`, so each one ends up as `self.msg.x`
  (`FunctionBody.ShadowingParameter`, stated for `x` as the only state
  variable and the only parameter; a further parameter named `msg` would
  turn it into `self.msg.msg.x`). A name `self` is worse off: the
  second pass also renames the `self` that the first pass added, and each
  `self` of the body becomes `msg.self.msg.self`
  (`FunctionBody.ShadowingSelf`).
- `_parse_returns` keeps the last token, so for `returns (string memory)`
  the kept return type is the data location `memory`, not the type
  (`SolidityParser.ReturnsKeepLocation`).
- `_convert_type` removes `[]` but not a data location. A parameter
  `uint256[] memory` becomes `map<Int, uint256 memory>`, and its element
  type is left unmapped because `uint256 memory` is no key of the mapping
  (`TypeMap.ArrayWithLocation`).
- `_generate_init` starts with the line `"\n    init() {"`. Every contract
  function starts with the line `"\n"`. Joined with newlines, these lines give
  blank lines in the output, and the model keeps them exactly.

## Model

| member | source | states |
|---|---|---|
| Comments.DropSpansRemoves | backend/transpiler.py:31-36 | a license, pragma or block-comment pass deletes a span from its opening marker through the first closing marker after it, provided no span opens earlier; the text before the span is kept |
| Comments.StripLineCommentsByLine | backend/transpiler.py:34 | line-comment stripping works line by line: every line is cut at its first `//` and every newline stays |
| Comments.LinesAfterStripping | backend/transpiler.py:34 | the i-th line of the stripped text is the i-th input line cut at its first `//`; no line is added or removed |
| Comments.RemoveCommentsNoOp | backend/transpiler.py:29-37 | `_remove_comments`: a text with no `//`, no `/*` and no `pragma solidity` holds nothing the four passes delete, and comes out unchanged |
| Patterns.Search | backend/transpiler.py:18-19 | `re.search(kw\s+(\w+))` finds nothing exactly when no position holds the keyword, whitespace and a word; otherwise it gives the whole identifier of the leftmost such match |
| Patterns.CaptureShape | backend/transpiler.py:18-19 | a match is the keyword, a non-empty run of whitespace, then a maximal run of word characters, which is the captured name |
| Patterns.FindAllSearch | backend/transpiler.py:110-112 | `findall` of the modifier pattern is empty exactly when `search` finds nothing, and otherwise its first element is what `search` finds |
| Patterns.FindAllScans | backend/transpiler.py:110-112 | `re.findall(kw\s+(\w+))` both ways: every element is the identifier captured by a match, the matches come in order without overlapping, and every match that does not start inside an earlier reported match is reported; exactly one list of positions meets this, and findall returns its captures |
| Patterns.SubWordIsRename | backend/transpiler.py:266-271 | whole-word substitution of a name renames exactly the maximal word-character runs equal to the name and copies every other run |
| Patterns.SubWordAbsent | backend/transpiler.py:266-271 | a name that is never a whole word of the text leaves the text unchanged |
| Patterns.RunsOfConcat | backend/transpiler.py:266-271 | pieces that alternate between word and non-word characters are exactly the runs the next substitution pass sees in their concatenation |
| Patterns.SubWordTwice | backend/transpiler.py:265-271 | two passes over the same name: when the first puts in a text that starts and ends with a word character, the second renames the name inside each inserted text and nothing that was not there before |
| Patterns.RequireSubIdentity | backend/transpiler.py:260 | the `require(...)` rewrite puts back what it matched, so it never changes the body |
| Text.JoinSplit | backend/transpiler.py:238 | joining the pieces of `split(sep)` with `sep` gives the text back |
| Text.SplitJoin | backend/transpiler.py:87 | splitting a join on a one-character separator that no part holds gives the parts back |
| Text.ReplaceIsSplitJoin | backend/transpiler.py:263 | `s.replace(p, r)` equals `r.join(s.split(p))` |
| Text.WordsOfJoin | backend/transpiler.py:91-92 | `split()` of a single-space join of tokens gives the tokens back |
| Text.WordsStrip | backend/transpiler.py:105-107 | surrounding whitespace does not change the whitespace tokens |
| Text.Capitalize | backend/transpiler.py:195 | `capitalize()` keeps the length, leaves no lower-case first letter and no upper-case later letter, and changes only letter case |
| Text.CapitalizeIdempotent | backend/transpiler.py:195 | capitalising a message name twice gives the same name as capitalising it once |
| SolidityParser.ParseParams | backend/transpiler.py:82-100 | a blank list gives no parameters; otherwise one parameter per comma segment that is not blank, in order; its name is the segment's last whitespace token and its type is the earlier tokens joined by single spaces |
| SolidityParser.ParseParamsIsFilter | backend/transpiler.py:83-89 | the early return for a blank list agrees with splitting on commas and dropping blank segments |
| SolidityParser.ParamOfRender | backend/transpiler.py:87-97 | a parameter written back as `type name` parses to the same parameter |
| SolidityParser.ParseRenderParams | backend/transpiler.py:82-100 | round trip: a parameter list written back as `type name, type name` parses to the same list |
| SolidityParser.ParseReturns | backend/transpiler.py:102-108 | absent exactly for an empty clause; otherwise a suffix of the stripped clause that holds no space, and empty exactly when the clause is all whitespace; when the stripped clause holds no space it is kept whole (tabs and newlines included), and when it holds one the result is its last whitespace token |
| SolidityParser.ParseReturnsLastWord | backend/transpiler.py:102-108 | for a clause whose stripped text holds the space character, even one spread over several lines, the kept type is its last whitespace token; a clause of one word is kept whole |
| SolidityParser.ReturnsKeepLocation | backend/transpiler.py:102-108 | for a type followed by a data location, such as `string memory`, the location is kept and the type is lost |
| SolidityParser.ExtractModifiers | backend/transpiler.py:110-112 | every extracted modifier name is an identifier; the list is empty exactly when no `modifier NAME` occurs, and it starts with the first one; it is the list of captures of the one position list that meets the scan description of `Patterns.FindAllScans` |
| SolidityParser.InterfaceFunction | backend/transpiler.py:44-52 | every interface function is `external`, has no body and no modifiers; its name, parameters and return type come from the three groups of its match |
| SolidityParser.StateVarOf | backend/transpiler.py:59-66 | a state variable's type and name are its stripped groups; it has an initial value exactly when that group matched, and the value is then the stripped group |
| SolidityParser.ContractFunction | backend/transpiler.py:72-80 | a contract function is `public` unless a visibility keyword was written, in which case it keeps that keyword; the body is stripped, the modifiers are read from the unstripped body |
| SolidityParser.VisibilityAlwaysSet | backend/transpiler.py:72-80 | every parsed function has a non-empty visibility: `external` in an interface, the written keyword or the `public` fallback in a contract |
| SolidityParser.ParseSolidity | backend/transpiler.py:13-27 | an `interface NAME` match wins and gives an interface with no state variables whose functions are all external, with no body and no modifiers; only without one does a `contract NAME` match give a contract; with neither the record stays empty |
| TypeMap.MappedNamesAreFinal | backend/transpiler.py:115-125 | no Tact name of the mapping is itself a key, holds `[]` or has surrounding whitespace |
| TypeMap.ConvertShape | backend/transpiler.py:183-188 | `_convert_type`: a plain type converts to its mapping entry or to its own stripped name; an array type converts to `map<Int, E>`, where `E` is the conversion of the type with every `[]` removed, as long as that holds no `[]` |
| TypeMap.ArrayWithLocation | backend/transpiler.py:183-188 | an array type followed by a data location, such as `uint256[] memory`, converts to `map<Int, uint256 memory>`: the location stays and the element type is not mapped |
| TypeMap.ConvertArray | backend/transpiler.py:183-188 | for a `T` that holds no `[]`, `T[]` converts to `map<Int, ` + the conversion of `T` + `>` |
| TypeMap.ConvertNestedArray | backend/transpiler.py:183-188 | arrays do not nest: for a `T` that holds no `[]`, `T[][]` converts exactly like `T[]` |
| TypeMap.ConvertIdempotent | backend/transpiler.py:183-188 | converting a converted type changes nothing, when the type left after removing every `[]` holds no `[]` (a text such as `[[]]` converts to `map<Int, []>`, which converts again to something else) |
| FunctionBody.ConvertFunctionBody | backend/transpiler.py:253-255 | an empty body becomes `return 0;` |
| FunctionBody.RequireRewriteIsNoOp | backend/transpiler.py:257-273 | a non-empty body is stripped, `msg.sender` becomes `sender()`, state variables are qualified with `self.`, then parameters with `msg.`, and nothing else changes |
| FunctionBody.QualifyOne | backend/transpiler.py:266-267 | one name pass renames exactly the whole-word occurrences of the name to the prefixed name |
| FunctionBody.QualifyAbsent | backend/transpiler.py:265-271 | names that never occur as whole words leave the body unchanged |
| FunctionBody.BodyUntouched | backend/transpiler.py:253-273 | a body that mentions no state variable, no parameter and no `msg.sender` comes out only stripped |
| FunctionBody.ShadowingParameter | backend/transpiler.py:265-271 | for every body, when `x` (other than `self`) is the only state variable and the only parameter, each whole-word `x` becomes `self.msg.x` and the rest of the body is only stripped and sender-rewritten |
| FunctionBody.ShadowingSelf | backend/transpiler.py:265-271 | with a state variable and a parameter both named `self`, each whole-word `self` becomes `msg.self.msg.self` |
| TactGenerator.InterfaceLayout | backend/transpiler.py:144-154 | `_generate_interface`: a trait is its header, then one signature line and one empty line per function in order, then `}` |
| TactGenerator.InterfaceLineShape | backend/transpiler.py:204-209 | `_generate_interface_function`: the signature line holds the function's name and its `name: converted type` declarations in order; the return type is `Bool` when none was parsed, the converted type otherwise |
| TactGenerator.SignatureParamAt | backend/transpiler.py:204-209 | in a signature line `fun name(d0, d1, …): rt;` built from any declaration list, declaration `k` is found whole at the offset that the name and the `k` earlier declarations with their `, ` separators give it |
| TactGenerator.MessageBlockShape | backend/transpiler.py:190-202 | `_generate_message_type`: a function without parameters has no message; otherwise the message is the header with the capitalised name, one field per parameter in order, `}` and an empty line |
| TactGenerator.DefaultInit | backend/transpiler.py:216-225 | the default is `0` exactly for the five integer types, `false` exactly for `bool`, `newAddress(0)` exactly for `address`, `new Map()` exactly for other types holding `[]` that are neither `bool` nor `address`, and absent exactly for the remaining types |
| TactGenerator.DefaultMatchesType | backend/transpiler.py:215-225 | every default fits the converted field type: `0` an `Int`, `false` a `Bool`, `newAddress(0)` an `Address`, `new Map()` a `map` |
| TactGenerator.InitExclusive | backend/transpiler.py:169-228 | a state variable is initialised inline exactly when its initial value is truthy, and in `init()` exactly when it is not and its type has a default; never both |
| TactGenerator.InitAssignmentAt | backend/transpiler.py:211-228 | `_generate_init`: every variable that needs a default gets its assignment inside `init()`, at a line given by its position among the variables |
| TactGenerator.InitOnlyDefaults | backend/transpiler.py:211-228 | `_generate_init`, the converse: every line between the opening and closing lines of `init()` assigns the default of a variable that needs one |
| TactGenerator.HandlerShape | backend/transpiler.py:230-251 | `_generate_contract_function`: a function with parameters becomes a `receive` handler named after its message; one without becomes a getter whose return type defaults to `Int` and whose missing body is the placeholder line |
| TactGenerator.BodyLinesHoldBody | backend/transpiler.py:236-238 | every body line is indented by eight spaces and holds no newline, and the lines without the indentation, joined with newlines, give the converted body back |
| TactGenerator.FieldsInOrder | backend/transpiler.py:165-171 | the state variables are declared right after the `contract` line, one line each, in order |
| TactGenerator.MessagesPrecedeHandlers | backend/transpiler.py:156-181 | `_generate_contract`: every function with parameters has its message header before the `contract` line and its `receive` header with the same name after it |
| TactGenerator.HeadersInOrder | backend/transpiler.py:159-181 | the message blocks and the handlers come in the order of the functions |
| TactGenerator.NoParamsNoMessage | backend/transpiler.py:159-163 | a function without parameters adds no line to the message section |
| TactGenerator.GenerateTact | backend/transpiler.py:130-142 | the output lines start with the import line and an empty line; an interface continues with its `trait` line; the last line is `}` |
| TactGenerator.TranspileHeader | backend/transpiler.py:275-280 | `transpile_solidity_to_tact`: the transpiled text always starts with the import line followed by an empty line |

## Left out

- `backend/main.py`, `backend/check_env.py` and `sources/contract.deploy.ts` are not part of this model. They hold HTTP plumbing, environment probing and a commented-out deployment script, with no transpiler logic.
- The three `re.findall` scans for interface functions, state variables and contract functions (lines 41, 56 and 69) are not re-implemented as a regular expression engine. Their group tuples come in as the `Scans` parameter, and everything done with the groups is modelled.
- SolidityParser.ParseSolidity: the `Scans` value is not tied to the text. The contract relates the record to whatever scans it is given, not to the matches Python would find.
- TactGenerator.TranspileHeader: `Transpile` takes the same `Scans` parameter, so the lemma is about every possible set of scan results.
- Comments.RemoveComments: its own contract only says the text never gets longer. What each of its four passes does is stated by `Comments.DropSpansRemoves` and `Comments.LinesAfterStripping`, and `Comments.RemoveCommentsNoOp` states that comment-free text passes through; no lemma states the composition of the four passes on text that does hold comments.
- FunctionBody.ShadowingParameter: stated only when `x` is the single state variable and the single parameter. With more names, each pass still renames as `FunctionBody.QualifyOne` states, but no lemma composes the passes for several names.
- Characters outside ASCII are not modelled. Python's `\w`, `\s`, `str.split()`, `str.strip()` and `str.capitalize()` are taken on the ASCII range only.
- The names in `\bNAME\b` are put into the pattern unescaped. A name holding regular-expression metacharacters would change the pattern. A malformed one makes `re.sub` raise `re.error`, an error path the model does not have. The model matches every name literally, and `FunctionBody.QualifyOne` is stated for identifiers only.
- The `except` branch of `_parse_params` only prints a message. It cannot be reached: a stripped, non-blank segment always has at least one whitespace token.
- The `events` list is never filled or read. Visibility and modifiers are extracted into the record but never read by the generator.
- The parser and generator objects, with their mutable fields, become immutable values passed between pure functions. `transpile_solidity_to_tact` builds a fresh parser for every call, so no state is carried between calls.

=== FILE: body.dfy ===
/**
 `TactGenerator._convert_function_body`: the textual rewrites that turn a
 Solidity function body into a Tact one.
 */
module FunctionBody {
  import opened Text
  import Patterns

  /** One `re.sub(r'\bNAME\b', prefix + NAME, text)` pass per name, in list
      order, each pass working on the output of the previous one. */
  function QualifyAll(s: string, names: seq<string>, prefix: string): string
    decreases |names|
  {
    if |names| == 0 then s
    else QualifyAll(Patterns.SubWord(s, names[0], prefix + names[0]), names[1..], prefix)
  }

  /** `_convert_function_body`: `return 0;` for an empty body; otherwise the
      stripped body with the `require(...)` rewrite, `msg.sender` turned into
      `sender()`, every state variable qualified with `self.` and then every
      parameter qualified with `msg.`. */
  function ConvertFunctionBody(body: string, varNames: seq<string>, paramNames: seq<string>): (r: string)
    ensures body == "" ==> r == "return 0;"
  {
    if body == "" then "return 0;"
    else
      var b := Patterns.RequireSub(Strip(body));
      var b2 := ReplaceAll(b, "msg.sender", "sender()");
      QualifyAll(QualifyAll(b2, varNames, "self."), paramNames, "msg.")
  }

  /** The `require(...)` rewrite puts back what it matched, so only the
      sender and name rewrites change a body. */
  lemma RequireRewriteIsNoOp(body: string, varNames: seq<string>, paramNames: seq<string>)
    requires body != ""
    ensures ConvertFunctionBody(body, varNames, paramNames)
         == QualifyAll(QualifyAll(ReplaceAll(Strip(body), "msg.sender", "sender()"), varNames, "self."), paramNames, "msg.")
  {
    Patterns.RequireSubIdentity(Strip(body));
  }

  /** `name` is one of the maximal runs of word characters of `s`. */
  predicate MentionsWord(s: string, name: string) {
    exists k :: 0 <= k < |Patterns.Runs(s)| && Patterns.Runs(s)[k] == name
  }

  /** Names that are never a whole word of the text leave it unchanged. */
  lemma {:induction false} QualifyAbsent(s: string, names: seq<string>, prefix: string)
    requires forall k :: 0 <= k < |names| ==> IsIdent(names[k]) && !MentionsWord(s, names[k])
    ensures QualifyAll(s, names, prefix) == s
    decreases |names|
  {
    if |names| > 0 {
      Patterns.SubWordAbsent(s, names[0], prefix + names[0]);
      QualifyAbsent(s, names[1..], prefix);
    }
  }

  /** A single pass renames exactly the runs equal to the name. */
  lemma QualifyOne(s: string, name: string, prefix: string)
    requires IsIdent(name)
    ensures QualifyAll(s, [name], prefix) == Patterns.RenameRuns(Patterns.Runs(s), name, prefix + name)
  {
    Patterns.SubWordIsRename(s, name, prefix + name);
    assert [name][1..] == [];
  }

  /** A body that mentions no state variable, no parameter and no
      `msg.sender` comes out only stripped. */
  lemma BodyUntouched(body: string, varNames: seq<string>, paramNames: seq<string>)
    requires body != ""
    requires !Contains(Strip(body), "msg.sender")
    requires forall k :: 0 <= k < |varNames| ==> IsIdent(varNames[k]) && !MentionsWord(Strip(body), varNames[k])
    requires forall k :: 0 <= k < |paramNames| ==> IsIdent(paramNames[k]) && !MentionsWord(Strip(body), paramNames[k])
    ensures ConvertFunctionBody(body, varNames, paramNames) == Strip(body)
  {
    var s := Strip(body);
    RequireRewriteIsNoOp(body, varNames, paramNames);
    assert ReplaceAll(s, "msg.sender", "sender()") == s;
    QualifyAbsent(s, varNames, "self.");
    QualifyAbsent(s, paramNames, "msg.");
  }

  /** The body after the `require(...)` and `msg.sender` rewrites, which the
      name passes then work on. */
  function SenderRewritten(body: string): string
  {
    ReplaceAll(Strip(body), "msg.sender", "sender()")
  }

  /** One name pass over a single name is one whole-word substitution. */
  lemma QualifySingle(s: string, name: string, prefix: string)
    ensures QualifyAll(s, [name], prefix) == Patterns.SubWord(s, name, prefix + name)
  {
    assert [name][1..] == [];
  }

  /** A parameter `x` that has the name of a state variable is rewritten
      twice: every whole-word `x` of the body becomes `self.x`, and then the
      `x` inside that becomes `msg.x`, so each one ends up as `self.msg.x`;
      every other part of the body is left as it is. */
  lemma ShadowingParameter(body: string, x: string)
    requires body != "" && IsIdent(x) && x != "self"
    ensures ConvertFunctionBody(body, [x], [x]) == Patterns.RenameRuns(Patterns.Runs(SenderRewritten(body)), x, "self.msg." + x)
  {
    var t := SenderRewritten(body);
    var parts := ["self", "."] + [x];
    SelfDotName(x);
    RenameSelfDot(x, "msg." + x);
    TwoPasses(body, x, parts, "msg." + x);
    assert "self." + ("msg." + x) == "self.msg." + x;
  }

  /** The same with a state variable and a parameter both named `self`: the
      `self` that the first pass adds is renamed by the second as well, so
      each whole-word `self` of the body becomes `msg.self.msg.self`. */
  lemma ShadowingSelf(body: string)
    requires body != ""
    ensures ConvertFunctionBody(body, ["self"], ["self"]) == Patterns.RenameRuns(Patterns.Runs(SenderRewritten(body)), "self", "msg.self.msg.self")
  {
    var parts := ["self", "."] + ["self"];
    SelfDotName("self");
    RenameSelfDotSelf();
    TwoPasses(body, "self", parts, "msg.self");
  }

  /** A state variable and a parameter of the same name: the body goes through
      two substitutions of that name, the first putting in the pieces
      `parts`. */
  lemma TwoPasses(body: string, x: string, parts: seq<string>, repl: string)
    requires body != "" && IsIdent(x) && repl == "msg." + x
    requires Patterns.WellRuns(parts) && |parts| > 0
    requires IsWordChar(parts[0][0]) && IsWordChar(parts[|parts| - 1][0])
    requires Flatten(parts) == "self." + x
    ensures ConvertFunctionBody(body, [x], [x])
         == Patterns.RenameRuns(Patterns.Runs(SenderRewritten(body)), x, Patterns.RenameRuns(parts, x, repl))
  {
    var t := SenderRewritten(body);
    var t1 := Patterns.SubWord(t, x, "self." + x);
    RequireRewriteIsNoOp(body, [x], [x]);
    QualifySingle(t, x, "self.");
    QualifySingle(t1, x, "msg.");
    Patterns.SubWordTwice(t, x, parts, repl);
  }

  /** `self.` followed by an identifier is three runs: two words around a dot. */
  lemma SelfDotName(x: string)
    requires IsIdent(x)
    ensures var parts := ["self", "."] + [x];
      && Patterns.WellRuns(parts) && IsWordChar(parts[0][0]) && IsWordChar(parts[|parts| - 1][0])
      && Flatten(parts) == "self." + x
  {
    var parts := ["self", "."] + [x];
    assert Patterns.Uniform("self") by { assert forall j :: 0 <= j < 4 ==> IsWordChar("self"[j]); }
    assert Patterns.Uniform(".");
    assert Patterns.Uniform(x);
    assert parts[1..] == ["."] + [x] && parts[1..][1..] == [x];
    Patterns.Single(x, x, x);
  }

  lemma RenameSelfDot(x: string, repl: string)
    requires x != "self" && IsIdent(x)
    ensures Patterns.RenameRuns(["self", "."] + [x], x, repl) == "self." + repl
  {
    var parts := ["self", "."] + [x];
    assert x != "." by { assert IsWordChar(x[0]); }
    assert parts[1..] == ["."] + [x] && parts[1..][1..] == [x];
    Patterns.Single(x, x, repl);
  }

  lemma RenameSelfDotSelf()
    ensures Patterns.RenameRuns(["self", "."] + ["self"], "self", "msg.self") == "msg.self.msg.self"
  {
    var parts := ["self", "."] + ["self"];
    assert parts[1..] == ["."] + ["self"] && parts[1..][1..] == ["self"];
    Patterns.Single("self", "self", "msg.self");
  }
}

=== FILE: comments.dfy ===
/**
 `SolidityParser._remove_comments`: four regular-expression passes, in this
 order, over the contract text.
 */
module Comments {
  import opened Wrappers
  import opened Text

  const LicenseMarker: string := "// SPDX-License-Identifier:"
  const PragmaMarker: string := "pragma solidity"

  /** `re.sub(re.escape(open) + '.*?' + re.escape(close), '', s)`: every span
      from `open` through the first `close` after it is deleted; an `open`
      with no `close` after it stays. With `close` = "\n" the lazy `.*?`
      never has to cross a newline, so the missing DOTALL flag of the
      license and pragma passes makes no difference. */
  function DropSpans(s: string, open: string, close: string): (r: string)
    requires |open| > 0 && |close| > 0
    ensures |r| <= |s|
    decreases |s|
  {
    if |s| == 0 then ""
    else if StartsWith(s, open) && FindFrom(s, close, |open|).Some? then
      DropSpans(s[FindFrom(s, close, |open|).value + |close|..], open, close)
    else [s[0]] + DropSpans(s[1..], open, close)
  }

  /** Text before which no span opens is copied as it is. */
  lemma {:induction false} DropSpansCopies(s: string, n: nat, open: string, close: string)
    requires |open| > 0 && |close| > 0 && n <= |s|
    requires forall j :: 0 <= j < n ==> !Occurs(s, open, j)
    ensures DropSpans(s, open, close) == s[..n] + DropSpans(s[n..], open, close)
    decreases n
  {
    if n > 0 {
      DropSpansStep(s, open, close);
      NoOpenShift(s, n, open);
      DropSpansCopies(s[1..], n - 1, open, close);
      HeadTail(s, n, DropSpans(s[n..], open, close));
    }
  }

  lemma HeadTail(s: string, n: nat, x: string)
    requires 0 < n <= |s|
    ensures [s[0]] + (s[1..][..n - 1] + x) == s[..n] + x
    ensures s[1..][n - 1..] == s[n..]
  {
    assert s[..n] == [s[0]] + s[1..][..n - 1];
  }

  /** With no span opening at the start, one character is copied. */
  lemma DropSpansStep(s: string, open: string, close: string)
    requires |open| > 0 && |close| > 0
    requires |s| > 0 && !Occurs(s, open, 0)
    ensures DropSpans(s, open, close) == [s[0]] + DropSpans(s[1..], open, close)
  {
    assert !StartsWith(s, open) by {
      if |open| <= |s| { assert s[..|open|] == s[0..|open|]; }
    }
  }

  /** Positions where no span opens, seen after dropping the first character. */
  lemma NoOpenShift(s: string, n: nat, open: string)
    requires 0 < n <= |s|
    requires forall j :: 0 <= j < n ==> !Occurs(s, open, j)
    ensures !Occurs(s, open, 0)
    ensures forall j :: 0 <= j < n - 1 ==> !Occurs(s[1..], open, j)
  {
    assert !Occurs(s, open, 0);
    forall j | 0 <= j < n - 1 ensures !Occurs(s[1..], open, j) {
      assert !Occurs(s, open, j + 1);
      if j + |open| <= |s| - 1 {
        assert s[1..][j..j + |open|] == s[j + 1..j + 1 + |open|];
      }
    }
  }

  /** A span that opens at the very start is deleted through its first close. */
  lemma DropSpansAtStart(m: string, b: string, open: string, close: string)
    requires |open| > 0 && |close| > 0
    requires forall j :: 0 <= j < |m| ==> !Occurs(m + close, close, j)
    ensures DropSpans(open + m + close + b, open, close) == DropSpans(b, open, close)
  {
    var rest := open + m + close + b;
    var e := |open| + |m|;
    assert rest[e..e + |close|] == close;
    assert rest[|open|..] == (m + close) + b;
    forall j | |open| <= j < e ensures !Occurs(rest, close, j) {
      assert !Occurs(m + close, close, j - |open|);
      assert rest[j..j + |close|] == (m + close)[j - |open|..j - |open| + |close|];
    }
    FindFromFirst(rest, close, |open|, e);
    assert rest[..|open|] == open;
    assert rest[e + |close|..] == b;
  }

  /** What the pass deletes: one span from `open` through the first `close`
      after it, provided no span opens earlier. */
  lemma DropSpansRemoves(a: string, m: string, b: string, open: string, close: string)
    requires |open| > 0 && |close| > 0
    requires forall j :: 0 <= j < |a| ==> !Occurs(a + open + m + close + b, open, j)
    requires forall j :: 0 <= j < |m| ==> !Occurs(m + close, close, j)
    ensures DropSpans(a + open + m + close + b, open, close) == a + DropSpans(b, open, close)
  {
    var s := a + open + m + close + b;
    var rest := open + m + close + b;
    assert s == a + rest;
    DropSpansCopies(s, |a|, open, close);
    assert s[..|a|] == a && s[|a|..] == rest;
    DropSpansAtStart(m, b, open, close);
  }

  /** `re.sub(r'//.*?$', '', s, flags=re.MULTILINE)`: from every `//` up to,
      but not including, the end of its line. */
  function StripLineComments(s: string): (r: string)
    ensures |r| <= |s|
    decreases |s|
  {
    if |s| == 0 then ""
    else if StartsWith(s, "//") then
      match FindFrom(s, "\n", 2)
      case None => ""
      case Some(j) => StripLineComments(s[j..])
    else [s[0]] + StripLineComments(s[1..])
  }

  /** Reference for one line: the line cut at its first `//`. */
  function CutComment(line: string): string
  {
    match Find(line, "//")
    case None => line
    case Some(k) => line[..k]
  }

  function CutComments(lines: seq<string>): (r: seq<string>)
    ensures |r| == |lines|
    ensures forall k :: 0 <= k < |lines| ==> r[k] == CutComment(lines[k])
  {
    if |lines| == 0 then [] else [CutComment(lines[0])] + CutComments(lines[1..])
  }

  lemma CutCommentShift(l: string)
    requires |l| > 0 && !StartsWith(l, "//")
    ensures CutComment(l) == [l[0]] + CutComment(l[1..])
  {
    var t := l[1..];
    assert !Occurs(l, "//", 0) by {
      if |l| >= 2 { assert l[0..2] == l[..2]; }
    }
    forall j | 1 <= j ensures Occurs(l, "//", j) <==> Occurs(t, "//", j - 1) {
      if j + 2 <= |l| { assert t[j - 1..j + 1] == l[j..j + 2]; }
    }
    match Find(t, "//")
    case None =>
      FindNone(l, "//");
    case Some(k) =>
      FindFirst(l, "//", k + 1);
      assert l[..k + 1] == [l[0]] + t[..k];
  }

  lemma FindNewlineFrom(a: string, b: string, i: nat)
    requires i <= |a| && '\n' !in a
    ensures FindFrom(a + b, "\n", i) == (if |b| > 0 && b[0] == '\n' then Some(|a|) else if |b| == 0 then None else FindFrom(a + b, "\n", i))
  {
    var s := a + b;
    forall j | i <= j < |a| ensures !Occurs(s, "\n", j) {
      assert s[j] == a[j];
      if j + 1 <= |s| { assert s[j..j + 1] == [s[j]]; }
    }
    if |b| > 0 && b[0] == '\n' {
      assert Occurs(s, "\n", |a|) by { assert s[|a|..|a| + 1] == [b[0]]; }
    } else if |b| == 0 {
      assert s == a;
    }
  }

  /** A line that starts with `//` vanishes up to its newline. */
  lemma StripCommentLine(l: string, t: string)
    requires '\n' !in l && |l| >= 2 && l[..2] == "//"
    requires |t| == 0 || t[0] == '\n'
    ensures StripLineComments(l + t) == CutComment(l) + StripLineComments(t)
  {
    var s := l + t;
    assert s[..2] == "//";
    assert Occurs(l, "//", 0) by { assert l[0..2] == l[..2]; }
    FindFirst(l, "//", 0);
    assert CutComment(l) == "";
    FindNewlineFrom(l, t, 2);
    if |t| > 0 {
      assert s[|l|..] == t;
    } else {
      assert StripLineComments(t) == "";
    }
  }

  /** A line that does not start with `//` keeps its first character. */
  lemma StripKeepFirst(l: string, t: string)
    requires '\n' !in l && |l| > 0 && !StartsWith(l, "//")
    requires |t| == 0 || t[0] == '\n'
    ensures StripLineComments(l + t) == [l[0]] + StripLineComments(l[1..] + t)
    ensures CutComment(l) == [l[0]] + CutComment(l[1..])
  {
    var s := l + t;
    NoSlashesAtStart(l, t);
    assert s[1..] == l[1..] + t;
    CutCommentShift(l);
  }

  /** A line that does not start with `//`, followed by a newline or nothing,
      gives a text that does not start with `//`. */
  lemma NoSlashesAtStart(l: string, t: string)
    requires '\n' !in l && |l| > 0 && !StartsWith(l, "//")
    requires |t| == 0 || t[0] == '\n'
    ensures !StartsWith(l + t, "//")
  {
    var s := l + t;
    if |l| >= 2 {
      assert s[..2] == l[..2];
    } else if |t| > 0 {
      assert s[1] == t[0];
    }
  }

  /** One line followed by its newline (or by the end of the text). */
  lemma {:induction false} StripOneLine(l: string, t: string)
    requires '\n' !in l
    requires |t| == 0 || t[0] == '\n'
    ensures StripLineComments(l + t) == CutComment(l) + StripLineComments(t)
    decreases |l|
  {
    var s := l + t;
    if |l| == 0 {
      assert s == t;
      FindNone(l, "//");
    } else if StartsWith(l, "//") {
      StripCommentLine(l, t);
    } else {
      StripKeepFirst(l, t);
      StripOneLine(l[1..], t);
    }
  }

  /** Line comment stripping works line by line: every line is cut at its first
      `//` and the newlines between lines all stay. */
  lemma {:induction false} StripLineCommentsByLine(s: string)
    ensures StripLineComments(s) == Join("\n", CutComments(Split(s, "\n")))
    decreases |s|
  {
    match Find(s, "\n")
    case None =>
      NoCharBefore(s, "\n", |s|);
      assert s[..|s|] == s;
      StripOneLine(s, "");
      assert s + "" == s;
    case Some(i) =>
      var l := s[..i];
      var r := s[i + 1..];
      SplitAtNewline(s, i);
      StripOneLine(l, "\n" + r);
      StripNewlineHead(r);
      StripLineCommentsByLine(r);
      JoinCutCons(l, Split(r, "\n"));
  }

  lemma {:induction false} SplitAtNewline(s: string, i: nat)
    requires Find(s, "\n") == Some(i)
    ensures i < |s| && '\n' !in s[..i]
    ensures s == s[..i] + ("\n" + s[i + 1..])
    ensures Split(s, "\n") == [s[..i]] + Split(s[i + 1..], "\n")
  {
    NoCharBefore(s, "\n", i);
    NewlineAt(s, i);
    SplitAt(s, "\n", i);
  }

  lemma {:induction false} NewlineAt(s: string, i: nat)
    requires Occurs(s, "\n", i)
    ensures i < |s| && s == s[..i] + ("\n" + s[i + 1..])
  {
    assert s[i] == s[i..i + 1][0];
  }

  lemma StripNewlineHead(r: string)
    ensures StripLineComments("\n" + r) == "\n" + StripLineComments(r)
  {
    var s := "\n" + r;
    assert s[1..] == r;
    assert |s| >= 2 ==> s[..2][0] == '\n';
  }

  lemma JoinCutCons(l: string, rest: seq<string>)
    requires |rest| > 0
    ensures Join("\n", CutComments([l] + rest)) == CutComment(l) + "\n" + Join("\n", CutComments(rest))
  {
    var cs := CutComments([l] + rest);
    assert cs == [CutComment(l)] + CutComments(rest);
    assert cs[1..] == CutComments(rest);
  }

  /** Equivalently: the i-th output line is the i-th input line cut at `//`. */
  lemma LinesAfterStripping(s: string)
    ensures Split(StripLineComments(s), "\n") == CutComments(Split(s, "\n"))
  {
    StripLineCommentsByLine(s);
    var lines := CutComments(Split(s, "\n"));
    SplitPartsLackSep(s, '\n');
    assert "\n" == ['\n'];
    forall k | 0 <= k < |lines| ensures '\n' !in lines[k] {
      CutCommentNoNewline(Split(s, "\n")[k]);
    }
    SplitJoin(lines, '\n');
  }

  lemma CutCommentNoNewline(l: string)
    requires '\n' !in l
    ensures '\n' !in CutComment(l)
  {
  }

  /** A text with no line-comment marker, no block-comment opener and no
      pragma line holds nothing the four passes delete: it comes out
      unchanged. */
  lemma RemoveCommentsNoOp(code: string)
    requires !Contains(code, "//") && !Contains(code, "/*") && !Contains(code, PragmaMarker)
    ensures RemoveComments(code) == code
  {
    NoLicense(code);
    DropAbsent(code, LicenseMarker, "\n");
    DropAbsent(code, PragmaMarker, "\n");
    StripAbsent(code);
    DropAbsent(code, "/*", "*/");
  }

  /** A pass whose opening marker never occurs copies the text. */
  lemma DropAbsent(s: string, open: string, close: string)
    requires |open| > 0 && |close| > 0 && !Contains(s, open)
    ensures DropSpans(s, open, close) == s
  {
    DropSpansCopies(s, |s|, open, close);
    assert s[..|s|] == s;
    assert s[|s|..] == "";
  }

  /** The license marker begins with `//`. */
  lemma NoLicense(s: string)
    requires !Contains(s, "//")
    ensures !Contains(s, LicenseMarker)
  {
    forall j | 0 <= j <= |s| ensures !Occurs(s, LicenseMarker, j) {
      assert !Occurs(s, "//", j);
      if j + |LicenseMarker| <= |s| {
        assert s[j..j + 2] == s[j..j + |LicenseMarker|][..2];
      }
    }
    FindNone(s, LicenseMarker);
  }

  /** A text without `//` has no line comment to strip. */
  lemma {:induction false} StripAbsent(s: string)
    requires !Contains(s, "//")
    ensures StripLineComments(s) == s
    decreases |s|
  {
    if |s| > 0 {
      NoOpenShift(s, |s|, "//");
      assert !StartsWith(s, "//") by {
        if |s| >= 2 { assert s[..2] == s[0..2]; }
      }
      FindNone(s[1..], "//");
      StripAbsent(s[1..]);
    }
  }

  /** `_remove_comments`: license line, pragma line, line comments, then block
      comments. */
  function RemoveComments(code: string): (r: string)
    ensures |r| <= |code|
  {
    var c1 := DropSpans(code, LicenseMarker, "\n");
    var c2 := DropSpans(c1, PragmaMarker, "\n");
    var c3 := StripLineComments(c2);
    DropSpans(c3, "/*", "*/")
  }
}

=== FILE: generator.dfy ===
/**
 `TactGenerator`: renders the structural record as Tact source, one line per
 list entry, the lines joined with newlines. Every `lines.extend` loop of
 the renderer is a `Flatten` of one block per item.
 */
module TactGenerator {
  import opened Wrappers
  import opened Text
  import opened SolidityParser
  import opened TypeMap
  import opened FunctionBody

  // ---------------------------------------------------------------------------
  // Blocks of lines

  /** Where block `k` starts in the flattened lines. */
  function Offset(blocks: seq<seq<string>>, k: nat): nat
    requires k <= |blocks|
  {
    |Flatten(blocks[..k])|
  }

  /** Block `k` sits, whole, between the blocks before it and the blocks after it. */
  lemma {:induction false} FlattenSplit(blocks: seq<seq<string>>, k: nat)
    requires k < |blocks|
    ensures Flatten(blocks) == Flatten(blocks[..k]) + blocks[k] + Flatten(blocks[k + 1..])
    decreases k
  {
    if k == 0 {
      assert blocks[..0] == [];
    } else {
      var tail := blocks[1..];
      FlattenSplit(tail, k - 1);
      assert tail[..k - 1] == blocks[..k][1..];
      assert tail[k - 1] == blocks[k];
      assert tail[k..] == blocks[k + 1..];
    }
  }

  /** Line `l` of block `k` is line `Offset(blocks, k) + l` of the result. */
  lemma FlattenAt(blocks: seq<seq<string>>, k: nat, l: nat)
    requires k < |blocks| && l < |blocks[k]|
    ensures Offset(blocks, k) + l < |Flatten(blocks)|
    ensures Flatten(blocks)[Offset(blocks, k) + l] == blocks[k][l]
  {
    FlattenSplit(blocks, k);
  }

  /** Blocks of two lines each: block `k` starts at line `2 * k`. */
  lemma {:induction false} FlattenPairs(blocks: seq<seq<string>>, k: nat)
    requires forall j :: 0 <= j < |blocks| ==> |blocks[j]| == 2
    requires k <= |blocks|
    ensures Offset(blocks, k) == 2 * k
    decreases k
  {
    if k > 0 {
      FlattenPairs(blocks, k - 1);
      assert blocks[..k] == blocks[..k - 1] + [blocks[k - 1]];
      FlattenAppend(blocks[..k - 1], [blocks[k - 1]]);
      assert Flatten([blocks[k - 1]]) == blocks[k - 1] + Flatten([]);
    }
  }

  /** Blocks of two lines each flatten to twice as many lines, block `k`
      giving lines `2 * k` and `2 * k + 1`. */
  lemma PairsAt(blocks: seq<seq<string>>, k: nat)
    requires forall j :: 0 <= j < |blocks| ==> |blocks[j]| == 2
    requires k < |blocks|
    ensures |Flatten(blocks)| == 2 * |blocks|
    ensures Flatten(blocks)[2 * k] == blocks[k][0] && Flatten(blocks)[2 * k + 1] == blocks[k][1]
  {
    FlattenPairs(blocks, |blocks|);
    assert blocks[..|blocks|] == blocks;
    FlattenPairs(blocks, k);
    FlattenAt(blocks, k, 0);
    FlattenAt(blocks, k, 1);
  }

  // ---------------------------------------------------------------------------
  // The lines the generators emit

  /** `f'{p["name"]}: {self._convert_type(p["type"])}'`. */
  function ParamDecl(p: Param): string
  {
    p.name + ": " + ConvertType(p.typ)
  }

  function TraitHeader(name: string): string { "trait " + name + " {" }

  function MessageHeader(messageName: string): string { "message " + messageName + " {" }

  function FieldLine(p: Param): string { "    " + ParamDecl(p) + ";" }

  function ContractHeader(name: string): string { "contract " + name + " with Deployable {" }

  function ReceiveHeader(messageName: string): string { "    receive(msg: " + messageName + ") {" }

  function GetterHeader(name: string, returnType: string): string
  {
    "    get fun " + name + "(): " + returnType + " {"
  }

  function InitAssignment(name: string, value: string): string
  {
    "        self." + name + " = " + value + ";"
  }

  const ImportLine: string := "import \"@stdlib/deploy\";"
  const InitHeader: string := "\n    init() {"
  const CloseBody: string := "    }"
  const Placeholder: string := "        return 0; // Implementation needed"

  /** The converted return type when one is given (truthy), the default otherwise. */
  function ReturnTypeOr(ret: Option<string>, default: string): (t: string)
    ensures !Truthy(ret) ==> t == default
    ensures Truthy(ret) ==> t == ConvertType(ret.value)
  {
    if Truthy(ret) then ConvertType(ret.value) else default
  }

  function ParamNames(ps: seq<Param>): (names: seq<string>)
    ensures |names| == |ps|
    ensures forall k :: 0 <= k < |ps| ==> names[k] == ps[k].name
  {
    seq(|ps|, k requires 0 <= k < |ps| => ps[k].name)
  }

  function VarNames(vs: seq<StateVar>): (names: seq<string>)
    ensures |names| == |vs|
    ensures forall k :: 0 <= k < |vs| ==> names[k] == vs[k].name
  {
    seq(|vs|, k requires 0 <= k < |vs| => vs[k].name)
  }

  // ---------------------------------------------------------------------------
  // Interfaces

  /** `_generate_interface_function`: one signature line, `Bool` when no
      return type was parsed. */
  function InterfaceFunctionLine(f: Func): string
  {
    "    fun " + f.name + "("
      + Join(", ", ParamDecls(f.params))
      + "): " + ReturnTypeOr(f.returnType, "Bool") + ";"
  }

  /** A signature line names the function, holds its parameter declarations
      (`name: converted type`, comma-separated, in order) between the
      parentheses, and ends with the return type: `Bool` when none was
      parsed, the converted type otherwise (`ReturnTypeOr`). */
  lemma InterfaceLineShape(f: Func)
    ensures var line := InterfaceFunctionLine(f);
      var open := "    fun " + f.name + "(";
      var decls := Join(", ", ParamDecls(f.params));
      && |open| + |decls| <= |line|
      && line[..|open|] == open
      && line[|open|..|open| + |decls|] == decls
      && line[|open| + |decls|..] == "): " + ReturnTypeOr(f.returnType, "Bool") + ";"
  {
    SignatureParts(f.name, Join(", ", ParamDecls(f.params)), ReturnTypeOr(f.returnType, "Bool"));
  }

  /** The partner of `InterfaceLineShape`: in a signature line
      `    fun name(d0, d1, …): rt;`, declaration `k` sits, whole, at its place
      in the comma-separated list. `InterfaceLineShape` shows that
      `InterfaceFunctionLine(f)` is this line for `ParamDecls(f.params)`. */
  lemma SignatureParamAt(name: string, ds: seq<string>, rt: string, k: nat)
    requires k < |ds|
    ensures var line := "    fun " + name + "(" + Join(", ", ds) + "): " + rt + ";";
      var o := |"    fun " + name + "("| + JoinOffset(", ", ds, k);
      o + |ds[k]| <= |line| && line[o..o + |ds[k]|] == ds[k]
  {
    var decls := Join(", ", ds);
    SignatureParts(name, decls, rt);
    JoinPartAt(", ", ds, k);
    SliceInside("    fun " + name + "(" + decls + "): " + rt + ";", |"    fun " + name + "("|, decls,
                JoinOffset(", ", ds, k), ds[k]);
  }

  /** A piece found inside a part of a text is found in the text, shifted by
      where the part starts. */
  lemma SliceInside(s: string, p: nat, part: string, o: nat, d: string)
    requires p + |part| <= |s| && s[p..p + |part|] == part
    requires o + |d| <= |part| && part[o..o + |d|] == d
    ensures p + o + |d| <= |s| && s[p + o..p + o + |d|] == d
  {
    forall i | 0 <= i < |d|
      ensures s[p + o + i] == d[i]
    {
      assert d[i] == part[o + i] == s[p + o + i];
    }
  }

  lemma SignatureParts(name: string, decls: string, rt: string)
    ensures var line := "    fun " + name + "(" + decls + "): " + rt + ";";
      var open := "    fun " + name + "(";
      && |open| + |decls| <= |line|
      && line[..|open|] == open
      && line[|open|..|open| + |decls|] == decls
      && line[|open| + |decls|..] == "): " + rt + ";"
  {
    LineParts("    fun " + name + "(", decls, "): ", rt, ";");
  }

  /** A line assembled from five parts, cut back at the first two. */
  lemma LineParts(a: string, b: string, c: string, d: string, e: string)
    ensures var s := a + b + c + d + e;
      && |a| + |b| <= |s| && s[..|a|] == a && s[|a|..|a| + |b|] == b && s[|a| + |b|..] == c + d + e
  {
    var s := a + b + c + d + e;
    assert s == (a + b) + (c + d + e);
  }

  function ParamDecls(ps: seq<Param>): (r: seq<string>)
    ensures |r| == |ps| && forall k :: 0 <= k < |ps| ==> r[k] == ParamDecl(ps[k])
  {
    seq(|ps|, k requires 0 <= k < |ps| => ParamDecl(ps[k]))
  }

  function InterfaceBlocks(fs: seq<Func>): (r: seq<seq<string>>)
    ensures |r| == |fs| && forall k :: 0 <= k < |fs| ==> r[k] == [InterfaceFunctionLine(fs[k]), ""]
  {
    seq(|fs|, k requires 0 <= k < |fs| => [InterfaceFunctionLine(fs[k]), ""])
  }

  /** `_generate_interface`. */
  function GenerateInterface(m: Model): seq<string>
  {
    [TraitHeader(m.name)] + Flatten(InterfaceBlocks(m.funcs)) + ["}"]
  }

  /** An interface renders as its `trait` line, one signature line and one empty
      line per function in order, and the closing brace. */
  lemma InterfaceLayout(m: Model)
    ensures var lines := GenerateInterface(m);
      && |lines| == 2 * |m.funcs| + 2
      && lines[0] == TraitHeader(m.name)
      && lines[|lines| - 1] == "}"
      && forall k :: 0 <= k < |m.funcs| ==>
           lines[2 * k + 1] == InterfaceFunctionLine(m.funcs[k]) && lines[2 * k + 2] == ""
  {
    var bs := InterfaceBlocks(m.funcs);
    PairsLayout(TraitHeader(m.name), bs, "}");
  }

  /** A header, blocks of two lines each, and a closing line. */
  lemma PairsLayout(header: string, blocks: seq<seq<string>>, close: string)
    requires forall j :: 0 <= j < |blocks| ==> |blocks[j]| == 2
    ensures var lines := [header] + Flatten(blocks) + [close];
      && |lines| == 2 * |blocks| + 2
      && lines[0] == header && lines[|lines| - 1] == close
      && forall k :: 0 <= k < |blocks| ==> lines[2 * k + 1] == blocks[k][0] && lines[2 * k + 2] == blocks[k][1]
  {
    var body := Flatten(blocks);
    var lines := [header] + body + [close];
    FlattenPairs(blocks, |blocks|);
    assert blocks[..|blocks|] == blocks;
    forall k | 0 <= k < |blocks|
      ensures lines[2 * k + 1] == blocks[k][0] && lines[2 * k + 2] == blocks[k][1]
    {
      PairsAt(blocks, k);
      assert lines[2 * k + 1] == body[2 * k];
      assert lines[2 * k + 2] == body[2 * k + 1];
    }
  }

  // ---------------------------------------------------------------------------
  // Message types

  /** `_generate_message_type`: nothing for a function without parameters,
      otherwise the `message` header, one field per parameter and `}`. */
  function MessageType(f: Func): seq<string>
  {
    if |f.params| == 0 then []
    else
      [MessageHeader(Capitalize(f.name))]
        + FieldLines(f.params)
        + ["}"]
  }

  function FieldLines(ps: seq<Param>): (r: seq<string>)
    ensures |r| == |ps| && forall k :: 0 <= k < |ps| ==> r[k] == FieldLine(ps[k])
  {
    seq(|ps|, k requires 0 <= k < |ps| => FieldLine(ps[k]))
  }

  /** One iteration of the first loop of `_generate_contract`. */
  function MessageBlock(f: Func): seq<string>
  {
    if |f.params| > 0 then MessageType(f) + [""] else []
  }

  function MessageBlocks(fs: seq<Func>): (r: seq<seq<string>>)
    ensures |r| == |fs| && forall k :: 0 <= k < |fs| ==> r[k] == MessageBlock(fs[k])
  {
    seq(|fs|, k requires 0 <= k < |fs| => MessageBlock(fs[k]))
  }

  function MessageSection(fs: seq<Func>): seq<string>
  {
    Flatten(MessageBlocks(fs))
  }

  /** The message block of a function with parameters: the header with the
      capitalised name, then one field per parameter in order, `}` and an
      empty line. A function without parameters has none. */
  lemma MessageBlockShape(f: Func)
    ensures |f.params| == 0 <==> MessageBlock(f) == []
    ensures |f.params| > 0 ==>
      var b := MessageBlock(f);
      && |b| == |f.params| + 3
      && b[0] == MessageHeader(Capitalize(f.name))
      && (forall k :: 0 <= k < |f.params| ==> b[k + 1] == FieldLine(f.params[k]))
      && b[|b| - 2] == "}" && b[|b| - 1] == ""
  {
    if |f.params| > 0 {
      var fields := FieldLines(f.params);
      var b := MessageBlock(f);
      assert b == [MessageHeader(Capitalize(f.name))] + fields + ["}"] + [""];
      forall k | 0 <= k < |f.params| ensures b[k + 1] == FieldLine(f.params[k]) {
        FieldAt(f, k);
      }
    }
  }

  lemma FieldAt(f: Func, k: nat)
    requires k < |f.params|
    ensures MessageBlock(f)[k + 1] == FieldLine(f.params[k])
  {
    var header := MessageHeader(Capitalize(f.name));
    var fields := FieldLines(f.params);
    assert MessageBlock(f) == [header] + fields + ["}"] + [""];
    BlockAt(header, fields, k);
  }

  lemma BlockAt(header: string, fields: seq<string>, k: nat)
    requires k < |fields|
    ensures ([header] + fields + ["}"] + [""])[k + 1] == fields[k]
  {
  }

  // ---------------------------------------------------------------------------
  // Default values

  /** The integer types `_generate_init` zero-initialises. */
  const NumericTypes: seq<string> := ["uint256", "uint", "int", "uint8", "uint128"]

  /** `_generate_init`'s default for a state variable declared without an
      initial value, chosen on the declared (unconverted) type; `None` when
      the variable is left uninitialised. */
  function DefaultInit(typ: string): (v: Option<string>)
    ensures v == Some("0") <==> typ in NumericTypes
    ensures v == Some("false") <==> typ == "bool"
    ensures v == Some("newAddress(0)") <==> typ == "address"
    ensures v == Some("new Map()") <==> typ !in NumericTypes && typ != "bool" && typ != "address" && Contains(typ, "[]")
    ensures v.None? <==> typ !in NumericTypes && typ != "bool" && typ != "address" && !Contains(typ, "[]")
  {
    if typ in NumericTypes then Some("0")
    else if typ == "bool" then Some("false")
    else if typ == "address" then Some("newAddress(0)")
    else if Contains(typ, "[]") then Some("new Map()")
    else None
  }

  /** The scalar types with a default are plain keys of the mapping, mapped
      to the Tact type their default belongs to. */
  lemma ScalarKey(typ: string)
    requires typ in NumericTypes || typ == "bool" || typ == "address"
    ensures typ in TypeMapping && '[' !in typ && IsStripped(typ)
    ensures typ in NumericTypes ==> StartsWith(TypeMapping[typ], "Int")
    ensures typ == "bool" ==> TypeMapping[typ] == "Bool"
    ensures typ == "address" ==> TypeMapping[typ] == "Address"
  {
    assert typ in TypeMapping;
    if typ in NumericTypes {
      assert TypeMapping[typ][..3] == "Int";
    }
  }

  /** The default value always fits the converted field type: `0` for an
      `Int`, `false` for a `Bool`, `newAddress(0)` for an `Address`, an empty
      map for a `map`. */
  lemma DefaultMatchesType(typ: string)
    requires DefaultInit(typ).Some?
    ensures DefaultInit(typ) == Some("0") ==> StartsWith(ConvertType(typ), "Int")
    ensures DefaultInit(typ) == Some("false") ==> ConvertType(typ) == "Bool"
    ensures DefaultInit(typ) == Some("newAddress(0)") ==> ConvertType(typ) == "Address"
    ensures DefaultInit(typ) == Some("new Map()") ==> StartsWith(ConvertType(typ), "map<Int, ")
  {
    if typ in NumericTypes || typ == "bool" || typ == "address" {
      ScalarKey(typ);
      PlainName(typ);
    } else {
      ConvertShape(typ);
    }
  }

  // ---------------------------------------------------------------------------
  // State variables and init

  /** The inline initialiser of a declaration: only for a truthy initial value. */
  function InitSuffix(init: Option<string>): string
  {
    if Truthy(init) then " = " + init.value else ""
  }

  /** A declaration line of `_generate_contract`. */
  function StateVarLine(v: StateVar): string
  {
    "    " + v.name + ": " + ConvertType(v.typ) + InitSuffix(v.initialValue) + ";"
  }

  function Fields(vs: seq<StateVar>): (r: seq<string>)
    ensures |r| == |vs| && forall k :: 0 <= k < |vs| ==> r[k] == StateVarLine(vs[k])
  {
    seq(|vs|, k requires 0 <= k < |vs| => StateVarLine(vs[k]))
  }

  /** One iteration of `_generate_init`'s loop. */
  function InitLine(v: StateVar): seq<string>
  {
    if Truthy(v.initialValue) then []
    else match DefaultInit(v.typ)
      case None => []
      case Some(d) => [InitAssignment(v.name, d)]
  }

  function InitBlocks(vs: seq<StateVar>): (r: seq<seq<string>>)
    ensures |r| == |vs| && forall k :: 0 <= k < |vs| ==> r[k] == InitLine(vs[k])
  {
    seq(|vs|, k requires 0 <= k < |vs| => InitLine(vs[k]))
  }

  /** `_generate_init`: the opening line (which begins with a newline), the
      default assignments, the closing brace. */
  function GenerateInit(vs: seq<StateVar>): seq<string>
  {
    [InitHeader] + Flatten(InitBlocks(vs)) + [CloseBody]
  }

  /** A state variable is initialised either inline on its declaration or in
      `init()`, never both: inline exactly when its initial value is truthy,
      in `init()` exactly when it is not and its declared type has a default. */
  lemma InitExclusive(v: StateVar)
    ensures Truthy(v.initialValue) ==> InitLine(v) == [] && InitSuffix(v.initialValue) == " = " + v.initialValue.value
    ensures !Truthy(v.initialValue) ==> InitSuffix(v.initialValue) == ""
    ensures !Truthy(v.initialValue) ==> (InitLine(v) != [] <==> DefaultInit(v.typ).Some?)
    ensures !Truthy(v.initialValue) && DefaultInit(v.typ).Some? ==>
      InitLine(v) == [InitAssignment(v.name, DefaultInit(v.typ).value)]
  {
  }

  /** Every variable initialised in `init()` gets its assignment there, in
      declaration order: the assignment of variable `k` sits at a line whose
      index grows with `k`. */
  lemma InitAssignmentAt(vs: seq<StateVar>, k: nat)
    requires k < |vs| && !Truthy(vs[k].initialValue) && DefaultInit(vs[k].typ).Some?
    ensures var lines := GenerateInit(vs); var i := 1 + Offset(InitBlocks(vs), k);
      && i < |lines| - 1
      && lines[i] == InitAssignment(vs[k].name, DefaultInit(vs[k].typ).value)
  {
    var bs := InitBlocks(vs);
    assert bs[k] == InitLine(vs[k]);
    FlattenAt(bs, k, 0);
  }

  /** A variable `_generate_init` assigns: no truthy initial value, and a
      declared type that has a default. */
  predicate NeedsDefault(v: StateVar) {
    !Truthy(v.initialValue) && DefaultInit(v.typ).Some?
  }

  function DefaultAssignment(v: StateVar): string
    requires NeedsDefault(v)
  {
    InitAssignment(v.name, DefaultInit(v.typ).value)
  }

  /** `init()` holds nothing but default assignments: every line between its
      opening and closing lines assigns the default of a variable that needs
      one. */
  lemma InitOnlyDefaults(vs: seq<StateVar>, i: nat)
    requires 0 < i < |GenerateInit(vs)| - 1
    ensures exists k :: 0 <= k < |vs| && NeedsDefault(vs[k]) && GenerateInit(vs)[i] == DefaultAssignment(vs[k])
  {
    var bs := InitBlocks(vs);
    assert GenerateInit(vs)[i] == Flatten(bs)[i - 1];
    FlattenOrigin(bs, i - 1);
    var k, l :| 0 <= k < |bs| && 0 <= l < |bs[k]| && Flatten(bs)[i - 1] == bs[k][l];
    assert bs[k] == InitLine(vs[k]);
  }

  /** Every flattened line is a line of one of the blocks. */
  lemma {:induction false} FlattenOrigin(blocks: seq<seq<string>>, i: nat)
    requires i < |Flatten(blocks)|
    ensures exists k, l :: 0 <= k < |blocks| && 0 <= l < |blocks[k]| && Flatten(blocks)[i] == blocks[k][l]
    decreases |blocks|
  {
    if i < |blocks[0]| {
      assert Flatten(blocks)[i] == blocks[0][i];
    } else {
      var rest := blocks[1..];
      FlattenOrigin(rest, i - |blocks[0]|);
      var k, l :| 0 <= k < |rest| && 0 <= l < |rest[k]| && Flatten(rest)[i - |blocks[0]|] == rest[k][l];
      assert rest[k] == blocks[k + 1];
    }
  }

  /** Offsets never decrease: a later block starts no earlier. */
  lemma OffsetMonotone(blocks: seq<seq<string>>, j: nat, k: nat)
    requires j <= k <= |blocks|
    ensures Offset(blocks, j) <= Offset(blocks, k)
  {
    assert blocks[..k] == blocks[..j] + blocks[j..k];
    FlattenAppend(blocks[..j], blocks[j..k]);
  }

  // ---------------------------------------------------------------------------
  // Contract functions

  function Indent(lines: seq<string>): (r: seq<string>)
    ensures |r| == |lines| && forall k :: 0 <= k < |lines| ==> r[k] == "        " + lines[k]
  {
    seq(|lines|, k requires 0 <= k < |lines| => "        " + lines[k])
  }

  /** The converted body cut at its newlines, each line indented by eight spaces. */
  function BodyLines(body: string, varNames: seq<string>, paramNames: seq<string>): seq<string>
  {
    Indent(Split(ConvertFunctionBody(body, varNames, paramNames), "\n"))
  }

  /** `_generate_contract_function`: a `receive` handler named after the
      message for a function with parameters, a `get fun` getter otherwise;
      state variables are qualified in both, parameters only in a handler. */
  function ContractFunctionLines(f: Func, varNames: seq<string>): seq<string>
  {
    if |f.params| > 0 then
      ["\n", ReceiveHeader(Capitalize(f.name))]
        + (if Truthy(f.body) then BodyLines(f.body.value, varNames, ParamNames(f.params)) else [])
        + [CloseBody]
    else
      ["\n", GetterHeader(f.name, ReturnTypeOr(f.returnType, "Int"))]
        + (if Truthy(f.body) then BodyLines(f.body.value, varNames, []) else [Placeholder])
        + [CloseBody]
  }

  function FunctionBlocks(fs: seq<Func>, varNames: seq<string>): (r: seq<seq<string>>)
    ensures |r| == |fs| && forall k :: 0 <= k < |fs| ==> r[k] == ContractFunctionLines(fs[k], varNames)
  {
    seq(|fs|, k requires 0 <= k < |fs| => ContractFunctionLines(fs[k], varNames))
  }

  /** The handler of a function with parameters carries exactly the name of
      its message; a function without parameters has no message and becomes
      a getter whose return type defaults to `Int` and whose missing body is
      a placeholder. */
  lemma HandlerShape(f: Func, varNames: seq<string>)
    ensures var b := ContractFunctionLines(f, varNames);
      && |b| >= 3 && b[0] == "\n" && b[|b| - 1] == CloseBody
      && (|f.params| > 0 ==>
            b[1] == ReceiveHeader(Capitalize(f.name)) && MessageBlock(f)[0] == MessageHeader(Capitalize(f.name)))
      && (|f.params| == 0 ==>
            b[1] == GetterHeader(f.name, ReturnTypeOr(f.returnType, "Int")) && MessageBlock(f) == [])
      && (|f.params| == 0 && !Truthy(f.body) ==> |b| == 4 && b[2] == Placeholder)
  {
  }

  /** The body lines hold the converted body: every line is indented by eight
      spaces and holds no newline, and the lines with the indentation removed,
      joined with newlines, give the converted body back. */
  lemma BodyLinesHoldBody(body: string, varNames: seq<string>, paramNames: seq<string>)
    ensures var b := ConvertFunctionBody(body, varNames, paramNames);
      var lines := BodyLines(body, varNames, paramNames);
      && (forall k :: 0 <= k < |lines| ==> StartsWith(lines[k], "        ") && '\n' !in lines[k][8..])
      && Join("\n", seq(|lines|, k requires 0 <= k < |lines| => lines[k][8..])) == b
  {
    var b := ConvertFunctionBody(body, varNames, paramNames);
    var parts := Split(b, "\n");
    var lines := BodyLines(body, varNames, paramNames);
    SplitPartsLackSep(b, '\n');
    assert "\n" == ['\n'];
    forall k | 0 <= k < |lines|
      ensures StartsWith(lines[k], "        ") && lines[k][8..] == parts[k]
    {
      assert lines[k] == "        " + parts[k];
    }
    assert seq(|lines|, k requires 0 <= k < |lines| => lines[k][8..]) == parts;
    JoinSplit(b, "\n");
  }

  // ---------------------------------------------------------------------------
  // Contracts and the whole output

  function FunctionSection(fs: seq<Func>, varNames: seq<string>): seq<string>
  {
    Flatten(FunctionBlocks(fs, varNames))
  }

  /** `_generate_contract`. */
  function GenerateContract(m: Model): seq<string>
  {
    MessageSection(m.funcs) + [ContractHeader(m.name)] + Fields(m.stateVars)
      + GenerateInit(m.stateVars) + FunctionSection(m.funcs, VarNames(m.stateVars)) + ["}"]
  }

  /** Where each part of a contract sits among its lines. */
  lemma ContractParts(a: seq<string>, b: string, c: seq<string>, d: seq<string>, e: seq<string>, f: string)
    ensures var s := a + [b] + c + d + e + [f];
      var n := |a| + 1 + |c| + |d|;
      && |s| == n + |e| + 1
      && (forall i :: 0 <= i < |a| ==> s[i] == a[i])
      && s[|a|] == b
      && (forall i :: 0 <= i < |c| ==> s[|a| + 1 + i] == c[i])
      && (forall i :: 0 <= i < |e| ==> s[n + i] == e[i])
      && s[|s| - 1] == f
  {
  }

  /** `generate_tact`'s lines: the import, an empty line, then the trait or
      the contract. */
  function GenerateTact(m: Model): (lines: seq<string>)
    ensures |lines| >= 3 && lines[0] == ImportLine && lines[1] == ""
    ensures m.isInterface ==> lines[2] == TraitHeader(m.name)
    ensures lines[|lines| - 1] == "}"
  {
    [ImportLine, ""] + (if m.isInterface then GenerateInterface(m) else GenerateContract(m))
  }

  /** `transpile_solidity_to_tact`. */
  function Transpile(code: string, scans: Scans): string
  {
    Join("\n", GenerateTact(ParseSolidity(code, scans)))
  }

  /** The output always begins with the import line and an empty line. */
  lemma TranspileHeader(code: string, scans: Scans)
    ensures StartsWith(Transpile(code, scans), ImportLine + "\n\n")
  {
    var m := ParseSolidity(code, scans);
    JoinHeader(GenerateTact(m));
  }

  lemma JoinHeader(lines: seq<string>)
    requires |lines| >= 3 && lines[0] == ImportLine && lines[1] == ""
    ensures StartsWith(Join("\n", lines), ImportLine + "\n\n")
  {
    var rest := lines[2..];
    assert lines == [ImportLine, ""] + rest;
    JoinAfterEmpty(ImportLine, "\n", rest);
  }

  /** Joining a first line, an empty line and more lines: the first line and
      two separators come first. */
  lemma JoinAfterEmpty(first: string, sep: string, rest: seq<string>)
    requires |rest| > 0
    ensures StartsWith(Join(sep, [first, ""] + rest), first + sep + sep)
  {
    var j := Join(sep, rest);
    var p := first + sep + sep;
    assert [first, ""] + rest == [first] + ([""] + rest);
    JoinCons(sep, first, [""] + rest);
    JoinCons(sep, "", rest);
    assert "" + sep == sep;
    assert Join(sep, [first, ""] + rest) == p + j;
    assert (p + j)[..|p|] == p;
  }

  /** In a contract, the state variables are declared right after the
      `contract` line, one line each, in order. */
  lemma FieldsInOrder(m: Model)
    ensures var lines := GenerateContract(m); var c := |MessageSection(m.funcs)|;
      && lines[c] == ContractHeader(m.name)
      && forall k :: 0 <= k < |m.stateVars| ==> lines[c + 1 + k] == StateVarLine(m.stateVars[k])
  {
    ContractParts(MessageSection(m.funcs), ContractHeader(m.name), Fields(m.stateVars),
      GenerateInit(m.stateVars), FunctionSection(m.funcs, VarNames(m.stateVars)), "}");
  }

  /** Message and handler parity: every function with parameters has its
      message header before the `contract` line and its `receive` handler,
      under the same name, after it. `HeadersInOrder` puts both kinds of
      header in the order of the functions. */
  lemma MessagesPrecedeHandlers(m: Model, k: nat)
    requires k < |m.funcs| && |m.funcs[k].params| > 0
    ensures var lines := GenerateContract(m);
      var c := |MessageSection(m.funcs)|;
      var fieldsEnd := c + 1 + |m.stateVars| + |GenerateInit(m.stateVars)|;
      var name := Capitalize(m.funcs[k].name);
      && lines[c] == ContractHeader(m.name)
      && Offset(MessageBlocks(m.funcs), k) < c
      && lines[Offset(MessageBlocks(m.funcs), k)] == MessageHeader(name)
      && fieldsEnd + Offset(FunctionBlocks(m.funcs, VarNames(m.stateVars)), k) + 1 < |lines|
      && lines[fieldsEnd + Offset(FunctionBlocks(m.funcs, VarNames(m.stateVars)), k) + 1] == ReceiveHeader(name)
  {
    var fs := m.funcs;
    var names := VarNames(m.stateVars);
    var lines := GenerateContract(m);
    var ms := MessageSection(fs);
    var fsec := FunctionSection(fs, names);
    var fieldsEnd := |ms| + 1 + |m.stateVars| + |GenerateInit(m.stateVars)|;
    ContractParts(ms, ContractHeader(m.name), Fields(m.stateVars), GenerateInit(m.stateVars), fsec, "}");
    MessageHeaderAt(fs, k);
    HandlerHeaderAt(fs, names, k);
    var i := Offset(MessageBlocks(fs), k);
    var j := Offset(FunctionBlocks(fs, names), k) + 1;
    assert lines[i] == ms[i];
    assert lines[fieldsEnd + j] == fsec[j];
  }

  /** The message header of a function with parameters opens its block of
      the message section. */
  lemma MessageHeaderAt(fs: seq<Func>, k: nat)
    requires k < |fs| && |fs[k].params| > 0
    ensures var i := Offset(MessageBlocks(fs), k);
      i < |MessageSection(fs)| && MessageSection(fs)[i] == MessageHeader(Capitalize(fs[k].name))
  {
    var mb := MessageBlocks(fs);
    MessageBlockShape(fs[k]);
    assert mb[k] == MessageBlock(fs[k]);
    FlattenAt(mb, k, 0);
  }

  /** The `receive` header of a function with parameters is the second line
      of its block of the function section. */
  lemma HandlerHeaderAt(fs: seq<Func>, names: seq<string>, k: nat)
    requires k < |fs| && |fs[k].params| > 0
    ensures var j := Offset(FunctionBlocks(fs, names), k) + 1;
      j < |FunctionSection(fs, names)| && FunctionSection(fs, names)[j] == ReceiveHeader(Capitalize(fs[k].name))
  {
    var fb := FunctionBlocks(fs, names);
    HandlerShape(fs[k], names);
    assert fb[k] == ContractFunctionLines(fs[k], names);
    FlattenAt(fb, k, 1);
  }

  /** Functions keep their order: the message block and the handler of an
      earlier function with parameters start before those of any later
      function. */
  lemma HeadersInOrder(m: Model, j: nat, k: nat)
    requires j < k < |m.funcs| && |m.funcs[j].params| > 0
    ensures Offset(MessageBlocks(m.funcs), j) < Offset(MessageBlocks(m.funcs), k)
    ensures Offset(FunctionBlocks(m.funcs, VarNames(m.stateVars)), j)
          < Offset(FunctionBlocks(m.funcs, VarNames(m.stateVars)), k)
  {
    var names := VarNames(m.stateVars);
    MessageBlockShape(m.funcs[j]);
    HandlerShape(m.funcs[j], names);
    OffsetBefore(MessageBlocks(m.funcs), j, k);
    OffsetBefore(FunctionBlocks(m.funcs, names), j, k);
  }

  /** A non-empty block starts before every later block. */
  lemma OffsetBefore(blocks: seq<seq<string>>, j: nat, k: nat)
    requires j < k <= |blocks| && |blocks[j]| > 0
    ensures Offset(blocks, j) < Offset(blocks, k)
  {
    OffsetStep(blocks, j);
    OffsetMonotone(blocks, j + 1, k);
  }

  /** The block after block `k` starts right after it. */
  lemma OffsetStep(blocks: seq<seq<string>>, k: nat)
    requires k < |blocks|
    ensures Offset(blocks, k + 1) == Offset(blocks, k) + |blocks[k]|
  {
    assert blocks[..k + 1] == blocks[..k] + [blocks[k]];
    FlattenAppend(blocks[..k], [blocks[k]]);
    assert Flatten([blocks[k]]) == blocks[k] + Flatten([]);
  }

  /** A function without parameters contributes no line to the message
      section: the section is that of the other functions. */
  lemma NoParamsNoMessage(fs: seq<Func>, k: nat)
    requires k < |fs| && |fs[k].params| == 0
    ensures MessageSection(fs) == MessageSection(fs[..k]) + MessageSection(fs[k + 1..])
  {
    var mb := MessageBlocks(fs);
    MessageBlockShape(fs[k]);
    FlattenSkipEmpty(mb, k);
    MessageBlocksPrefix(fs, k);
    MessageBlocksSuffix(fs, k + 1);
  }

  /** An empty block adds no line. */
  lemma FlattenSkipEmpty(blocks: seq<seq<string>>, k: nat)
    requires k < |blocks| && blocks[k] == []
    ensures Flatten(blocks) == Flatten(blocks[..k]) + Flatten(blocks[k + 1..])
  {
    FlattenSplit(blocks, k);
  }

  lemma MessageBlocksPrefix(fs: seq<Func>, k: nat)
    requires k <= |fs|
    ensures MessageBlocks(fs)[..k] == MessageBlocks(fs[..k])
  {
    var a := MessageBlocks(fs)[..k];
    var b := MessageBlocks(fs[..k]);
    forall x | 0 <= x < k ensures a[x] == b[x] {
      assert fs[..k][x] == fs[x];
    }
  }

  lemma MessageBlocksSuffix(fs: seq<Func>, k: nat)
    requires k <= |fs|
    ensures MessageBlocks(fs)[k..] == MessageBlocks(fs[k..])
  {
    var a := MessageBlocks(fs)[k..];
    var b := MessageBlocks(fs[k..]);
    forall x | 0 <= x < |fs| - k ensures a[x] == b[x] {
      assert fs[k..][x] == fs[k + x];
    }
  }
}

=== FILE: parser.dfy ===
/**
 `SolidityParser`: the structural record of one contract or interface, and
 the extraction that fills it from contract text.

 The three `re.findall` scans of the source (interface functions, state
 variables, contract functions) are not re-implemented as a regular
 expression engine: their group tuples arrive as a `Scans` value, and
 everything the parser does with those groups is modelled.
 */
module SolidityParser {
  import opened Wrappers
  import opened Text
  import Patterns
  import Comments

  // ---------------------------------------------------------------------------
  // The structural record

  datatype Param = Param(typ: string, name: string)

  datatype StateVar = StateVar(typ: string, name: string, initialValue: Option<string>)

  datatype Func = Func(
    name: string,
    params: seq<Param>,
    visibility: string,
    returnType: Option<string>,
    body: Option<string>,
    modifiers: seq<string>)

  datatype Model = Model(isInterface: bool, name: string, stateVars: seq<StateVar>, funcs: seq<Func>)

  /** Python truthiness of an optional string: present and non-empty. */
  predicate Truthy(v: Option<string>) {
    v.Some? && |v.value| > 0
  }

  /** What every extracted interface keeps: no state variables, and every
      function is an external declaration without a body or modifiers. */
  predicate InterfaceShape(m: Model) {
    m.isInterface ==>
      && m.stateVars == []
      && forall k :: 0 <= k < |m.funcs| ==>
           m.funcs[k].visibility == "external" && m.funcs[k].body.None? && m.funcs[k].modifiers == []
  }

  // ---------------------------------------------------------------------------
  // _parse_params

  /** One parameter from a stripped, non-blank comma segment: the last
      whitespace token is the name, the tokens before it joined by single
      spaces are the type. */
  function ParamOf(seg: string): (p: Param)
    requires !AllSpace(seg)
    ensures IsToken(p.name)
    ensures Words(p.typ) + [p.name] == Words(seg)
    ensures p.typ == Join(" ", Words(p.typ))
  {
    var parts := Words(seg);
    WordsEmpty(seg);
    WordsAreTokens(seg);
    var n := |parts| - 1;
    var typ := Join(" ", parts[..n]);
    JoinTokensStripped(parts[..n]);
    WordsOfJoin(parts[..n]);
    assert parts == parts[..n] + [parts[n]];
    Param(Strip(typ), Strip(parts[n]))
  }

  /** The comma segments that are not blank, stripped. */
  function NonBlank(segs: seq<string>): (r: seq<string>)
    ensures forall k :: 0 <= k < |r| ==> !AllSpace(r[k]) && IsStripped(r[k])
    ensures |r| <= |segs|
  {
    if |segs| == 0 then []
    else
      var t := Strip(segs[0]);
      (if |t| > 0 then [t] else []) + NonBlank(segs[1..])
  }

  /** The body of the `for` loop: one parameter per non-blank segment. */
  function ParamsOf(segs: seq<string>): (ps: seq<Param>)
  {
    var nb := NonBlank(segs);
    seq(|nb|, k requires 0 <= k < |nb| => ParamOf(nb[k]))
  }

  /** `_parse_params`: one parameter per comma segment that is not blank, in
      order; a blank list gives no parameters. */
  function ParseParams(params: string): (ps: seq<Param>)
    ensures AllSpace(params) ==> ps == []
    ensures |ps| == |NonBlank(Split(params, ","))|
    ensures forall k :: 0 <= k < |ps| ==>
              && IsToken(ps[k].name)
              && Words(ps[k].typ) + [ps[k].name] == Words(NonBlank(Split(params, ","))[k])
              && ps[k].typ == Join(" ", Words(ps[k].typ))
  {
    if |Strip(params)| == 0 then
      BlankHasOneSegment(params);
      []
    else ParamsOf(Split(params, ","))
  }

  lemma BlankHasOneSegment(params: string)
    requires AllSpace(params)
    ensures NonBlank(Split(params, ",")) == []
  {
    assert ',' !in params by {
      forall i | 0 <= i < |params| ensures params[i] != ',' {
        assert IsSpace(params[i]);
      }
    }
    FindCharAbsent(params, ',');
  }

  /** The early return for a blank list changes nothing: splitting and
      filtering blank segments already gives the empty list. */
  lemma ParseParamsIsFilter(params: string)
    ensures ParseParams(params) == ParamsOf(Split(params, ","))
  {
    if AllSpace(params) {
      BlankHasOneSegment(params);
    }
  }

  // ---------------------------------------------------------------------------
  // Rendering parameters back as source text

  /** A parameter as the source would declare it: `type name`. */
  function RenderParam(p: Param): (r: string)
    ensures IsToken(p.name) ==> !AllSpace(r)
  {
    assert IsToken(p.name) ==> !IsSpace((if p.typ == "" then p.name else p.typ + " " + p.name)[|p.typ| + (if p.typ == "" then 0 else 1) + |p.name| - 1]);
    if p.typ == "" then p.name else p.typ + " " + p.name
  }

  function RenderParams(ps: seq<Param>): string
  {
    Join(", ", seq(|ps|, k requires 0 <= k < |ps| => RenderParam(ps[k])))
  }

  /** A parameter the parser can produce and that can be written back. */
  predicate WellFormedParam(p: Param) {
    IsToken(p.name) && ',' !in p.name && ',' !in p.typ && p.typ == Join(" ", Words(p.typ))
  }

  lemma RenderParamWords(p: Param)
    requires WellFormedParam(p)
    ensures Words(RenderParam(p)) == Words(p.typ) + [p.name]
    ensures IsStripped(RenderParam(p)) && !AllSpace(RenderParam(p))
    ensures ',' !in RenderParam(p)
  {
    WordsOfToken(p.name);
    var r := RenderParam(p);
    assert !AllSpace(r) by { assert !IsSpace(r[|r| - 1]); }
    if p.typ != "" {
      WordsAppend(p.typ, ' ', p.name);
      assert r == p.typ + [' '] + p.name;
      WordsAreTokens(p.typ);
      JoinTokensStripped(Words(p.typ));
      assert !IsSpace(r[0]) by { assert r[0] == p.typ[0]; }
    }
  }

  /** Parsing a rendered parameter gives the parameter back. */
  lemma ParamOfRender(p: Param)
    requires WellFormedParam(p)
    ensures ParamOf(RenderParam(p)) == p
  {
    RenderParamWords(p);
    var q := ParamOf(RenderParam(p));
    assert Words(q.typ) + [q.name] == Words(p.typ) + [p.name];
    assert q.name == (Words(q.typ) + [q.name])[|Words(q.typ)|];
    assert Words(q.typ) == (Words(q.typ) + [q.name])[..|Words(q.typ)|];
  }

  function Spaced(xs: seq<string>): (r: seq<string>)
    ensures |r| == |xs|
    ensures forall k :: 0 <= k < |xs| ==> r[k] == " " + xs[k]
  {
    if |xs| == 0 then [] else [" " + xs[0]] + Spaced(xs[1..])
  }

  lemma {:induction false} JoinSpaced(ys: seq<string>)
    requires |ys| > 0
    ensures Join(",", Spaced(ys)) == " " + Join(", ", ys)
    decreases |ys|
  {
    if |ys| > 1 {
      JoinSpaced(ys[1..]);
      assert Spaced(ys) == [" " + ys[0]] + Spaced(ys[1..]);
    }
  }

  lemma JoinCons(sep: string, x: string, rest: seq<string>)
    requires |rest| > 0
    ensures Join(sep, [x] + rest) == x + sep + Join(sep, rest)
  {
    assert ([x] + rest)[1..] == rest;
  }

  lemma CommaSpace(a: string, j: string)
    ensures a + "," + (" " + j) == a + ", " + j
  {
    assert "," + " " == ", ";
  }

  lemma JoinCommaSpace(xs: seq<string>)
    requires |xs| > 0
    ensures Join(", ", xs) == Join(",", [xs[0]] + Spaced(xs[1..]))
  {
    if |xs| > 1 {
      var j := Join(", ", xs[1..]);
      JoinSpaced(xs[1..]);
      JoinCons(",", xs[0], Spaced(xs[1..]));
      JoinCons(", ", xs[0], xs[1..]);
      assert xs == [xs[0]] + xs[1..];
      CommaSpace(xs[0], j);
    }
  }

  /** `", ".join(xs)` splits on commas into the first item and the others each
      with the space in front. */
  lemma SplitCommaSpace(xs: seq<string>)
    requires |xs| > 0
    requires forall k :: 0 <= k < |xs| ==> ',' !in xs[k]
    ensures Split(Join(", ", xs), ",") == [xs[0]] + Spaced(xs[1..])
  {
    var segs := [xs[0]] + Spaced(xs[1..]);
    JoinCommaSpace(xs);
    SegmentsLackComma(xs);
    SplitJoin(segs, ',');
    assert [','] == ",";
  }

  lemma SegmentsLackComma(xs: seq<string>)
    requires |xs| > 0
    requires forall k :: 0 <= k < |xs| ==> ',' !in xs[k]
    ensures var segs := [xs[0]] + Spaced(xs[1..]);
      forall k :: 0 <= k < |segs| ==> ',' !in segs[k]
  {
    var segs := [xs[0]] + Spaced(xs[1..]);
    forall k | 0 <= k < |segs| ensures ',' !in segs[k] {
      if k > 0 {
        assert segs[k] == " " + xs[k];
      }
    }
  }

  lemma NonBlankCons(x: string, rest: seq<string>)
    ensures NonBlank([x] + rest) == (if |Strip(x)| > 0 then [Strip(x)] else []) + NonBlank(rest)
  {
    assert ([x] + rest)[1..] == rest;
  }

  lemma StrippedToken(x: string)
    requires IsStripped(x) && !AllSpace(x)
    ensures Strip(" " + x) == x && Strip(x) == x && |x| > 0
  {
    StripSpacePrefix(' ', x);
  }

  lemma {:induction false} NonBlankSpaced(ys: seq<string>)
    requires forall k :: 0 <= k < |ys| ==> IsStripped(ys[k]) && !AllSpace(ys[k])
    ensures NonBlank(Spaced(ys)) == ys
    decreases |ys|
  {
    if |ys| > 0 {
      var sp := Spaced(ys);
      assert sp == [" " + ys[0]] + Spaced(ys[1..]);
      StrippedToken(ys[0]);
      NonBlankCons(" " + ys[0], Spaced(ys[1..]));
      NonBlankSpaced(ys[1..]);
      assert ys == [ys[0]] + ys[1..];
    }
  }

  lemma NonBlankRendered(x: string, ys: seq<string>)
    requires IsStripped(x) && !AllSpace(x)
    requires forall k :: 0 <= k < |ys| ==> IsStripped(ys[k]) && !AllSpace(ys[k])
    ensures NonBlank([x] + Spaced(ys)) == [x] + ys
  {
    StrippedToken(x);
    NonBlankCons(x, Spaced(ys));
    NonBlankSpaced(ys);
  }

  lemma NonBlankSplitList(xs: seq<string>)
    requires |xs| > 0
    requires forall k :: 0 <= k < |xs| ==> IsStripped(xs[k]) && !AllSpace(xs[k])
    ensures NonBlank([xs[0]] + Spaced(xs[1..])) == xs
  {
    NonBlankRendered(xs[0], xs[1..]);
    assert xs == [xs[0]] + xs[1..];
  }

  /** The rendered parameters, with what the round trip needs of them. */
  lemma RenderedSegments(ps: seq<Param>, xs: seq<string>)
    requires |xs| == |ps|
    requires forall k :: 0 <= k < |ps| ==> WellFormedParam(ps[k]) && xs[k] == RenderParam(ps[k])
    ensures forall k :: 0 <= k < |xs| ==> ',' !in xs[k] && IsStripped(xs[k]) && !AllSpace(xs[k])
    ensures forall k :: 0 <= k < |xs| ==> ParamOf(xs[k]) == ps[k]
  {
    forall k | 0 <= k < |xs| ensures ',' !in xs[k] && IsStripped(xs[k]) && !AllSpace(xs[k]) {
      RenderParamWords(ps[k]);
    }
    forall k | 0 <= k < |ps| ensures ParamOf(xs[k]) == ps[k] {
      ParamOfRender(ps[k]);
    }
  }

  /** `_parse_params` only looks at the non-blank comma segments. */
  lemma ParseParamsOfSegments(text: string, xs: seq<string>, ps: seq<Param>)
    requires NonBlank(Split(text, ",")) == xs
    requires |xs| == |ps|
    requires forall k :: 0 <= k < |xs| ==> ParamOf(xs[k]) == ps[k]
    ensures ParseParams(text) == ps
  {
    ParseParamsIsFilter(text);
  }

  /** Round trip: parameters written back as `type name, type name` parse to
      the same parameters. */
  lemma {:induction false} ParseRenderParams(ps: seq<Param>)
    requires forall k :: 0 <= k < |ps| ==> WellFormedParam(ps[k])
    ensures ParseParams(RenderParams(ps)) == ps
  {
    var xs := seq(|ps|, k requires 0 <= k < |ps| => RenderParam(ps[k]));
    var text := Join(", ", xs);
    assert RenderParams(ps) == text;
    if |ps| > 0 {
      RenderedSegments(ps, xs);
      SplitCommaSpace(xs);
      NonBlankSplitList(xs);
    } else {
      assert Split(text, ",") == [""];
    }
    ParseParamsOfSegments(text, xs, ps);
  }

  // ---------------------------------------------------------------------------
  // _parse_returns

  /** `_parse_returns`: absent for an empty clause; otherwise the stripped
      clause, cut down to its last whitespace token when it holds a space, and
      kept whole (tabs and newlines included) when it does not. */
  function ParseReturns(clause: string): (r: Option<string>)
    ensures r.None? <==> clause == ""
    ensures r.Some? ==> ' ' !in r.value
    ensures r.Some? ==> |r.value| <= |Strip(clause)| && Strip(clause)[|Strip(clause)| - |r.value|..] == r.value
    ensures r.Some? ==> (r.value == "" <==> AllSpace(clause))
    ensures clause != "" && ' ' !in Strip(clause) ==> r == Some(Strip(clause))
    ensures clause != "" && ' ' in Strip(clause) ==>
              |Words(clause)| > 0 && r == Some(Words(clause)[|Words(clause)| - 1])
  {
    if clause == "" then None
    else
      var t := Strip(clause);
      if ' ' in t then
        var ws := Words(t);
        LastWordIsSuffix(t);
        WordsAreTokens(t);
        WordsStrip(clause);
        Some(ws[|ws| - 1])
      else Some(t)
  }

  /** The last whitespace token of a text that ends in a non-space is a suffix
      of it. */
  lemma {:induction false} LastWordIsSuffix(s: string)
    requires !AllSpace(s) && !IsSpace(s[|s| - 1])
    ensures var ws := Words(s); |ws| > 0 && |ws[|ws| - 1]| <= |s| && s[|s| - |ws[|ws| - 1]|..] == ws[|ws| - 1]
    decreases |s|, 1
  {
    if IsSpace(s[0]) {
      LastWordAfterSpace(s);
    } else {
      LastWordAfterToken(s);
    }
  }

  lemma {:induction false} LastWordAfterSpace(s: string)
    requires !AllSpace(s) && !IsSpace(s[|s| - 1]) && IsSpace(s[0])
    ensures var ws := Words(s); |ws| > 0 && |ws[|ws| - 1]| <= |s| && s[|s| - |ws[|ws| - 1]|..] == ws[|ws| - 1]
    decreases |s|, 0
  {
    WordsSpaceStep(s);
    assert !AllSpace(s[1..]) by { assert s[1..][|s| - 2] == s[|s| - 1]; }
    LastWordIsSuffix(s[1..]);
    var ws := Words(s[1..]);
    SuffixOfDrop(s, 1, ws[|ws| - 1]);
  }

  lemma {:induction false} LastWordAfterToken(s: string)
    requires !AllSpace(s) && !IsSpace(s[|s| - 1]) && !IsSpace(s[0])
    ensures var ws := Words(s); |ws| > 0 && |ws[|ws| - 1]| <= |s| && s[|s| - |ws[|ws| - 1]|..] == ws[|ws| - 1]
    decreases |s|, 0
  {
    var n := TokLen(s);
    WordsTokenStep(s, n);
    if n == |s| {
      assert s[..n] == s;
      assert Words(s[n..]) == [];
    } else {
      assert !AllSpace(s[n..]) by { assert s[n..][|s| - n - 1] == s[|s| - 1]; }
      LastWordIsSuffix(s[n..]);
      var ws := Words(s[n..]);
      SuffixOfDrop(s, n, ws[|ws| - 1]);
    }
  }

  lemma SuffixOfDrop(s: string, n: nat, w: string)
    requires n <= |s| && |w| <= |s| - n && s[n..][|s| - n - |w|..] == w
    ensures s[|s| - |w|..] == w
  {
  }

  /** The only whitespace inside the clause, if any, is the space character. */
  predicate SpaceSeparated(t: string) {
    forall i :: 0 <= i < |t| ==> IsSpace(t[i]) ==> t[i] == ' '
  }

  lemma NoWhitespaceIsToken(t: string)
    requires t != "" && SpaceSeparated(t) && ' ' !in t
    ensures IsToken(t)
  {
    forall i | 0 <= i < |t| ensures !IsSpace(t[i]) {
      assert t[i] in t;
    }
  }

  /** A returns clause that holds a space, such as `string memory` or a
      clause spread over several lines, or a single word such as `bool`: the
      kept type is its last whitespace token. */
  lemma ParseReturnsLastWord(clause: string)
    requires !AllSpace(clause) && (' ' in Strip(clause) || SpaceSeparated(Strip(clause)))
    ensures var ws := Words(clause); |ws| > 0 && ParseReturns(clause) == Some(ws[|ws| - 1])
  {
    var t := Strip(clause);
    WordsStrip(clause);
    if ' ' !in t {
      NoWhitespaceIsToken(t);
      WordsOfToken(t);
    }
  }

  /** A return type followed by a data location, such as `string memory`:
      the location is what is kept, not the type. */
  lemma ReturnsKeepLocation(typ: string, loc: string)
    requires IsToken(typ) && IsToken(loc)
    ensures ParseReturns(typ + " " + loc) == Some(loc)
  {
    var ws := [typ, loc];
    var t := typ + " " + loc;
    assert ws[1..] == [loc];
    assert Join(" ", ws) == t;
    WordsOfJoin(ws);
    JoinTokensStripped(ws);
    assert t[|typ|] == ' ';
  }

  // ---------------------------------------------------------------------------
  // _extract_modifiers

  /** `_extract_modifiers`: the identifier after each `modifier` keyword in a
      body, in order, skipping a keyword that starts inside an earlier match. */
  function ExtractModifiers(body: string): (names: seq<string>)
    ensures forall k :: 0 <= k < |names| ==> IsIdent(names[k])
    ensures |names| == 0 <==> Patterns.Search(body, "modifier").None?
    ensures |names| > 0 ==> Patterns.Search(body, "modifier") == Some(names[0])
    ensures exists ps :: Patterns.IsScan(body, "modifier", 0, ps)
    ensures forall ps :: Patterns.IsScan(body, "modifier", 0, ps) ==> names == Patterns.Captures(body, "modifier", ps)
  {
    Patterns.FindAllSearch(body, "modifier");
    Patterns.FindAllScans(body, "modifier");
    Patterns.FindAll(body, "modifier")
  }

  // ---------------------------------------------------------------------------
  // parse_solidity

  /** Groups of one match of the interface function pattern (name, params, returns). */
  datatype InterfaceMatch = InterfaceMatch(name: string, params: string, returnsText: string)

  /** Groups of one match of the state variable pattern (type, name, initial value). */
  datatype StateVarMatch = StateVarMatch(typ: string, name: string, init: string)

  /** Groups of one match of the contract function pattern. */
  datatype FunctionMatch = FunctionMatch(name: string, params: string, visibility: string, returnsText: string, body: string)

  /** The `re.findall` results over the comment-free text. A group that did not
      take part in a match is the empty string, as `findall` reports it. */
  datatype Scans = Scans(interfaceFns: seq<InterfaceMatch>, stateVars: seq<StateVarMatch>, contractFns: seq<FunctionMatch>)

  /** `_parse_interface_functions`, for one match. */
  function InterfaceFunction(m: InterfaceMatch): (f: Func)
    ensures f.name == m.name && f.params == ParseParams(m.params) && f.returnType == ParseReturns(m.returnsText)
    ensures f.visibility == "external" && f.body.None? && f.modifiers == []
  {
    Func(m.name, ParseParams(m.params), "external", ParseReturns(m.returnsText), None, [])
  }

  function InterfaceFunctions(ms: seq<InterfaceMatch>): (fs: seq<Func>)
    ensures |fs| == |ms|
    ensures forall k :: 0 <= k < |fs| ==> fs[k] == InterfaceFunction(ms[k])
  {
    seq(|ms|, k requires 0 <= k < |ms| => InterfaceFunction(ms[k]))
  }

  /** `_parse_contract`'s state variables, for one match: an initial value
      only when the group matched, and then stripped. */
  function StateVarOf(m: StateVarMatch): (v: StateVar)
    ensures v.initialValue.None? <==> m.init == ""
    ensures v.initialValue.Some? ==> IsStripped(v.initialValue.value)
    ensures IsStripped(v.typ) && IsStripped(v.name)
    ensures v.typ == Strip(m.typ) && v.name == Strip(m.name)
    ensures v.initialValue.Some? ==> v.initialValue.value == Strip(m.init)
  {
    StateVar(Strip(m.typ), Strip(m.name), if m.init == "" then None else Some(Strip(m.init)))
  }

  function StateVars(ms: seq<StateVarMatch>): (vs: seq<StateVar>)
    ensures |vs| == |ms|
    ensures forall k :: 0 <= k < |vs| ==> vs[k] == StateVarOf(ms[k])
  {
    seq(|ms|, k requires 0 <= k < |ms| => StateVarOf(ms[k]))
  }

  /** `_parse_contract`'s functions, for one match: `public` when no
      visibility keyword was written, the body stripped, modifiers scraped
      from the raw body. */
  function ContractFunction(m: FunctionMatch): (f: Func)
    ensures f.name == m.name && f.params == ParseParams(m.params) && f.returnType == ParseReturns(m.returnsText)
    ensures m.visibility == "" ==> f.visibility == "public"
    ensures m.visibility != "" ==> f.visibility == m.visibility
    ensures f.body == Some(Strip(m.body))
    ensures f.modifiers == ExtractModifiers(m.body)
  {
    Func(m.name, ParseParams(m.params), if m.visibility == "" then "public" else m.visibility,
         ParseReturns(m.returnsText), Some(Strip(m.body)), ExtractModifiers(m.body))
  }

  function ContractFunctions(ms: seq<FunctionMatch>): (fs: seq<Func>)
    ensures |fs| == |ms|
    ensures forall k :: 0 <= k < |fs| ==> fs[k] == ContractFunction(ms[k])
  {
    seq(|ms|, k requires 0 <= k < |ms| => ContractFunction(ms[k]))
  }

  /** Every parsed function has a visibility: `external` in an interface,
      the written keyword or `public` in a contract, so never the empty one. */
  lemma VisibilityAlwaysSet(code: string, scans: Scans)
    ensures var m := ParseSolidity(code, scans);
      forall k :: 0 <= k < |m.funcs| ==> m.funcs[k].visibility != ""
  {
    var m := ParseSolidity(code, scans);
    forall k | 0 <= k < |m.funcs| ensures m.funcs[k].visibility != "" {
      if !m.isInterface {
        assert m.funcs[k] == ContractFunction(scans.contractFns[k]);
      }
    }
  }

  /** `parse_solidity`: strip comments, then an `interface NAME` match wins
      over a `contract NAME` match; without either the record stays empty. */
  function ParseSolidity(code: string, scans: Scans): (m: Model)
    ensures var iface := Patterns.Search(Comments.RemoveComments(code), "interface");
              && (m.isInterface <==> iface.Some?)
              && (iface.Some? ==> m.name == iface.value && m.funcs == InterfaceFunctions(scans.interfaceFns))
    ensures var clean := Comments.RemoveComments(code);
              var contract := Patterns.Search(clean, "contract");
              Patterns.Search(clean, "interface").None? ==>
                if contract.Some? then
                  && m.name == contract.value
                  && m.stateVars == StateVars(scans.stateVars)
                  && m.funcs == ContractFunctions(scans.contractFns)
                else m == Model(false, "", [], [])
    ensures m.name == "" || IsIdent(m.name)
    ensures InterfaceShape(m)
  {
    var clean := Comments.RemoveComments(code);
    match Patterns.Search(clean, "interface")
    case Some(name) =>
      Model(true, name, [], InterfaceFunctions(scans.interfaceFns))
    case None =>
      match Patterns.Search(clean, "contract")
      case Some(name) =>
        Model(false, name, StateVars(scans.stateVars), ContractFunctions(scans.contractFns))
      case None => Model(false, "", [], [])
  }
}

=== FILE: patterns.dfy ===
/**
 The small regular expressions of the transpiler, each written out as the
 scanner Python's `re` module runs for it:
 - `KEYWORD\s+(\w+)` with `re.search` and `re.findall`
   (declaration detection and modifier-name extraction);
 - `\bNAME\b` with `re.sub` (qualifying state variables and parameters);
 - `require\((.*?)\);` rewritten to `require(\1);` (the require rewrite).
 */
module Patterns {
  import opened Wrappers
  import opened Text

  // ---------------------------------------------------------------------------
  // KEYWORD\s+(\w+)

  /** End of the whitespace run that starts at `i`. */
  function SpaceEnd(s: string, i: nat): (k: nat)
    requires i <= |s|
    ensures i <= k <= |s|
    ensures forall j :: i <= j < k ==> IsSpace(s[j])
    ensures k < |s| ==> !IsSpace(s[k])
    decreases |s| - i
  {
    if i < |s| && IsSpace(s[i]) then SpaceEnd(s, i + 1) else i
  }

  /** End of the `\w` run that starts at `i`. */
  function WordEnd(s: string, i: nat): (k: nat)
    requires i <= |s|
    ensures i <= k <= |s|
    ensures forall j :: i <= j < k ==> IsWordChar(s[j])
    ensures k < |s| ==> !IsWordChar(s[k])
    decreases |s| - i
  {
    if i < |s| && IsWordChar(s[i]) then WordEnd(s, i + 1) else i
  }

  /** `kw\s+(\w+)` matches at index `i`: the keyword, at least one whitespace
      character, then at least one word character. Whitespace and word
      characters are disjoint, so the greedy runs never backtrack. */
  predicate KeywordAt(s: string, kw: string, i: nat) {
    && Occurs(s, kw, i)
    && i + |kw| < |s|
    && IsSpace(s[i + |kw|])
    && SpaceEnd(s, i + |kw|) < |s|
    && IsWordChar(s[SpaceEnd(s, i + |kw|)])
  }

  /** Where the captured identifier of a match at `i` begins. */
  function IdentStart(s: string, kw: string, i: nat): nat
    requires KeywordAt(s, kw, i)
  {
    SpaceEnd(s, i + |kw|)
  }

  /** Where a match at `i` ends. */
  function KeywordEnd(s: string, kw: string, i: nat): (e: nat)
    requires KeywordAt(s, kw, i)
    ensures i < e <= |s|
  {
    WordEnd(s, IdentStart(s, kw, i))
  }

  /** Group 1 of a match at `i`: the whole identifier after the keyword. */
  function Capture(s: string, kw: string, i: nat): (name: string)
    requires KeywordAt(s, kw, i)
    ensures IsIdent(name)
  {
    s[IdentStart(s, kw, i)..KeywordEnd(s, kw, i)]
  }

  /** What a match means: the keyword, then a non-empty whitespace gap, then
      the captured identifier, which is not followed by another word
      character. */
  lemma CaptureShape(s: string, kw: string, i: nat)
    requires KeywordAt(s, kw, i)
    ensures var g := IdentStart(s, kw, i); var e := KeywordEnd(s, kw, i);
              && StartsWith(s[i..], kw)
              && i + |kw| < g
              && AllSpace(s[i + |kw|..g])
              && Capture(s, kw, i) == s[g..e]
              && (e == |s| || !IsWordChar(s[e]))
  {
    assert s[i..][..|kw|] == s[i..i + |kw|];
  }

  /** The first match position at or after `i`. */
  function FirstKeywordFrom(s: string, kw: string, i: nat): (r: Option<nat>)
    requires i <= |s|
    ensures r.Some? ==> i <= r.value < |s| && KeywordAt(s, kw, r.value)
    ensures forall j :: i <= j < |s| && (r.None? || j < r.value) ==> !KeywordAt(s, kw, j)
    decreases |s| - i
  {
    if i == |s| then None
    else if KeywordAt(s, kw, i) then Some(i)
    else FirstKeywordFrom(s, kw, i + 1)
  }

  /** `re.search(kw + r'\s+(\w+)', s)`: group 1 of the leftmost match. */
  function Search(s: string, kw: string): (r: Option<string>)
    ensures r.None? <==> forall j :: 0 <= j < |s| ==> !KeywordAt(s, kw, j)
    ensures r.Some? ==>
              exists j :: 0 <= j < |s| && KeywordAt(s, kw, j) && r.value == Capture(s, kw, j)
                          && forall j' :: 0 <= j' < j ==> !KeywordAt(s, kw, j')
  {
    match FirstKeywordFrom(s, kw, 0)
    case None => None
    case Some(j) => Some(Capture(s, kw, j))
  }

  /** `re.findall(kw + r'\s+(\w+)', s[i:])`: the captures of the successive
      non-overlapping matches, scanning on from the end of each match. */
  function FindAllFrom(s: string, kw: string, i: nat): (r: seq<string>)
    requires i <= |s|
    ensures forall k :: 0 <= k < |r| ==> IsIdent(r[k])
    ensures |r| == 0 <==> forall j :: i <= j < |s| ==> !KeywordAt(s, kw, j)
    decreases |s| - i
  {
    if i == |s| then []
    else if KeywordAt(s, kw, i) then [Capture(s, kw, i)] + FindAllFrom(s, kw, KeywordEnd(s, kw, i))
    else FindAllFrom(s, kw, i + 1)
  }

  function FindAll(s: string, kw: string): seq<string>
  {
    FindAllFrom(s, kw, 0)
  }

  /** `findall` and `search` agree on the first match. */
  lemma {:induction false} FindAllStartsWithSearch(s: string, kw: string, i: nat)
    requires i <= |s|
    ensures var all := FindAllFrom(s, kw, i); var first := FirstKeywordFrom(s, kw, i);
              && (|all| == 0 <==> first.None?)
              && (|all| > 0 ==> all[0] == Capture(s, kw, first.value))
    decreases |s| - i
  {
    if i < |s| {
      if KeywordAt(s, kw, i) {
        MatchFirst(s, kw, i);
      } else {
        NoMatchSkipped(s, kw, i);
        FindAllStartsWithSearch(s, kw, i + 1);
      }
    }
  }

  lemma MatchFirst(s: string, kw: string, i: nat)
    requires i < |s| && KeywordAt(s, kw, i)
    ensures |FindAllFrom(s, kw, i)| > 0 && FindAllFrom(s, kw, i)[0] == Capture(s, kw, i)
    ensures FirstKeywordFrom(s, kw, i) == Some(i)
  {
  }

  lemma NoMatchSkipped(s: string, kw: string, i: nat)
    requires i < |s| && !KeywordAt(s, kw, i)
    ensures FindAllFrom(s, kw, i) == FindAllFrom(s, kw, i + 1)
    ensures FirstKeywordFrom(s, kw, i) == FirstKeywordFrom(s, kw, i + 1)
  {
  }

  lemma FindAllSearch(s: string, kw: string)
    ensures |FindAll(s, kw)| == 0 <==> Search(s, kw).None?
    ensures |FindAll(s, kw)| > 0 ==> Search(s, kw) == Some(FindAll(s, kw)[0])
  {
    FindAllStartsWithSearch(s, kw, 0);
  }

  // ---------------------------------------------------------------------------
  // What findall reports, stated without replaying the scan

  /** A left-to-right scan for non-overlapping matches over `[i, n)`: `at(p)`
      says a match starts at `p`, `end(p)` is where it ends. Every reported
      position is a match; the reported matches come in increasing order
      without overlapping; and every match position is reported unless it
      starts inside a reported match. */
  predicate ScanOf(at: nat -> bool, end: nat -> nat, n: nat, i: nat, ps: seq<nat>) {
    && (forall k :: 0 <= k < |ps| ==> i <= ps[k] < n && at(ps[k]))
    && (forall a, b :: 0 <= a < b < |ps| ==> end(ps[a]) <= ps[b])
    && (forall j :: i <= j < n && at(j) ==> j in ps || Inside(end, ps, j))
  }

  /** Position `j` lies strictly inside one of the matches starting at `ps`. */
  predicate Inside(end: nat -> nat, ps: seq<nat>, j: nat) {
    exists k :: 0 <= k < |ps| && ps[k] < j < end(ps[k])
  }

  /** Every match ends after it starts. */
  ghost predicate EndsAfter(at: nat -> bool, end: nat -> nat) {
    forall p: nat :: at(p) ==> p < end(p)
  }

  /** The leftmost-first scan itself: report a match where one starts, then
      go on from its end; otherwise move one position on. */
  function Greedy(at: nat -> bool, end: nat -> nat, n: nat, i: nat): (ps: seq<nat>)
    ensures forall k :: 0 <= k < |ps| ==> i <= ps[k] < n && at(ps[k])
    decreases n - i
  {
    if i >= n then []
    else if at(i) then [i] + Greedy(at, end, n, if end(i) > i then end(i) else i + 1)
    else Greedy(at, end, n, i + 1)
  }

  /** The greedy scan meets the scan description. */
  lemma {:induction false} GreedyIsScan(at: nat -> bool, end: nat -> nat, n: nat, i: nat)
    requires EndsAfter(at, end)
    ensures ScanOf(at, end, n, i, Greedy(at, end, n, i))
    decreases n - i
  {
    if i < n {
      if at(i) {
        GreedyIsScan(at, end, n, end(i));
        ScanCons(at, end, n, i, Greedy(at, end, n, end(i)));
      } else {
        GreedyIsScan(at, end, n, i + 1);
        ScanSkip(at, end, n, i, Greedy(at, end, n, i + 1));
      }
    }
  }

  /** Nothing but the greedy scan meets the scan description. */
  lemma {:induction false} ScanIsGreedy(at: nat -> bool, end: nat -> nat, n: nat, i: nat, ps: seq<nat>)
    requires EndsAfter(at, end) && ScanOf(at, end, n, i, ps)
    ensures ps == Greedy(at, end, n, i)
    decreases n - i
  {
    if i >= n {
      ScanBounds(at, end, n, i, ps);
    } else if at(i) {
      ScanTail(at, end, n, i, ps);
      ScanIsGreedy(at, end, n, end(i), ps[1..]);
      assert ps == [i] + ps[1..];
    } else {
      ScanSkip(at, end, n, i, ps);
      ScanIsGreedy(at, end, n, i + 1, ps);
    }
  }

  /** A non-empty scan starts inside the scanned range. */
  lemma ScanBounds(at: nat -> bool, end: nat -> nat, n: nat, i: nat, ps: seq<nat>)
    requires ScanOf(at, end, n, i, ps)
    ensures |ps| > 0 ==> i <= ps[0] < n
  {
  }

  /** A position where no match starts adds nothing to a scan. */
  lemma ScanSkip(at: nat -> bool, end: nat -> nat, n: nat, i: nat, ps: seq<nat>)
    requires i < n && !at(i)
    ensures ScanOf(at, end, n, i, ps) <==> ScanOf(at, end, n, i + 1, ps)
  {
    if ScanOf(at, end, n, i, ps) {
      assert forall k :: 0 <= k < |ps| ==> ps[k] != i;
    }
  }

  /** A match at `i` followed by a scan from its end is a scan from `i`. */
  lemma ScanCons(at: nat -> bool, end: nat -> nat, n: nat, i: nat, rest: seq<nat>)
    requires i < n && at(i) && EndsAfter(at, end) && ScanOf(at, end, n, end(i), rest)
    ensures ScanOf(at, end, n, i, [i] + rest)
  {
    var ps := [i] + rest;
    assert forall k :: 0 < k < |ps| ==> ps[k] == rest[k - 1];
    forall j | i <= j < n && at(j)
      ensures j in ps || Inside(end, ps, j)
    {
      if j == i {
        assert ps[0] == j;
      } else if j < end(i) {
        assert ps[0] < j < end(ps[0]);
      } else if j !in rest {
        var k :| 0 <= k < |rest| && rest[k] < j < end(rest[k]);
        assert ps[k + 1] == rest[k];
      }
    }
  }

  /** A scan from a match position reports that position first, and the rest
      of it is a scan from the end of that match. */
  lemma ScanTail(at: nat -> bool, end: nat -> nat, n: nat, i: nat, ps: seq<nat>)
    requires i < n && at(i) && EndsAfter(at, end) && ScanOf(at, end, n, i, ps)
    ensures |ps| > 0 && ps[0] == i && ScanOf(at, end, n, end(i), ps[1..])
  {
    assert !Inside(end, ps, i);
    var m :| 0 <= m < |ps| && ps[m] == i;
    assert forall k :: 0 < k < |ps| ==> end(ps[0]) <= ps[k];
    assert m == 0;
    forall j | end(i) <= j < n && at(j)
      ensures j in ps[1..] || Inside(end, ps[1..], j)
    {
      TailCovers(at, end, n, i, ps, j);
    }
  }

  /** After the first match, a match position is reported by the rest of the
      scan or lies inside one of its matches. */
  lemma TailCovers(at: nat -> bool, end: nat -> nat, n: nat, i: nat, ps: seq<nat>, j: nat)
    requires ScanOf(at, end, n, i, ps) && |ps| > 0 && ps[0] == i
    requires i < end(i) <= j < n && at(j)
    ensures j in ps[1..] || Inside(end, ps[1..], j)
  {
    var rest := ps[1..];
    if j !in ps {
      var k :| 0 <= k < |ps| && ps[k] < j < end(ps[k]);
      assert rest[k - 1] == ps[k];
    } else {
      var l :| 0 <= l < |ps| && ps[l] == j;
      assert rest[l - 1] == j;
    }
  }

  /** `kw\s+(\w+)` matches at `p`. */
  function MatchAt(s: string, kw: string): nat -> bool
  {
    (p: nat) => KeywordAt(s, kw, p)
  }

  /** Where a match at `p` ends (any later position where there is none). */
  function MatchEnd(s: string, kw: string): nat -> nat
  {
    (p: nat) => if KeywordAt(s, kw, p) then KeywordEnd(s, kw, p) else p + 1
  }

  /** The scan description for `kw\s+(\w+)` over `s` from `i`. */
  predicate IsScan(s: string, kw: string, i: nat, ps: seq<nat>) {
    ScanOf(MatchAt(s, kw), MatchEnd(s, kw), |s|, i, ps)
  }

  lemma MatchEndsAfter(s: string, kw: string)
    ensures EndsAfter(MatchAt(s, kw), MatchEnd(s, kw))
  {
  }

  /** The captured identifiers of the matches starting at `ps`, in order. */
  function Captures(s: string, kw: string, ps: seq<nat>): (names: seq<string>)
    requires forall k :: 0 <= k < |ps| ==> KeywordAt(s, kw, ps[k])
    ensures |names| == |ps|
    ensures forall k :: 0 <= k < |ps| ==> names[k] == Capture(s, kw, ps[k])
  {
    if |ps| == 0 then [] else [Capture(s, kw, ps[0])] + Captures(s, kw, ps[1..])
  }

  /** `findall` from `i` reports the captures of the greedy scan from `i`. */
  lemma {:induction false} FindAllGreedy(s: string, kw: string, i: nat)
    requires i <= |s|
    ensures FindAllFrom(s, kw, i) == Captures(s, kw, Greedy(MatchAt(s, kw), MatchEnd(s, kw), |s|, i))
    decreases |s| - i
  {
    if i < |s| {
      if KeywordAt(s, kw, i) {
        var e := KeywordEnd(s, kw, i);
        assert MatchEnd(s, kw)(i) == e;
        FindAllGreedy(s, kw, e);
        MatchCons(s, kw, i);
      } else {
        assert Greedy(MatchAt(s, kw), MatchEnd(s, kw), |s|, i) == Greedy(MatchAt(s, kw), MatchEnd(s, kw), |s|, i + 1);
        FindAllGreedy(s, kw, i + 1);
      }
    }
  }

  /** One step of both scans at a match. */
  lemma MatchCons(s: string, kw: string, i: nat)
    requires i < |s| && KeywordAt(s, kw, i)
    ensures var g := Greedy(MatchAt(s, kw), MatchEnd(s, kw), |s|, KeywordEnd(s, kw, i));
      && Greedy(MatchAt(s, kw), MatchEnd(s, kw), |s|, i) == [i] + g
      && FindAllFrom(s, kw, i) == [Capture(s, kw, i)] + FindAllFrom(s, kw, KeywordEnd(s, kw, i))
  {
    assert MatchEnd(s, kw)(i) == KeywordEnd(s, kw, i);
  }

  /** `re.findall(kw + r'\s+(\w+)', s)` in both directions: the identifiers
      it returns are the captures of the one list of positions that meets the
      scan description. */
  lemma FindAllScans(s: string, kw: string)
    ensures exists ps :: IsScan(s, kw, 0, ps)
    ensures forall ps :: IsScan(s, kw, 0, ps) ==> FindAll(s, kw) == Captures(s, kw, ps)
  {
    MatchEndsAfter(s, kw);
    GreedyIsScan(MatchAt(s, kw), MatchEnd(s, kw), |s|, 0);
    FindAllGreedy(s, kw, 0);
    forall ps | IsScan(s, kw, 0, ps)
      ensures FindAll(s, kw) == Captures(s, kw, ps)
    {
      ScanIsGreedy(MatchAt(s, kw), MatchEnd(s, kw), |s|, 0, ps);
    }
  }

  // ---------------------------------------------------------------------------
  // \bNAME\b

  /** The regular-expression assertion `\b` at position `i`: a word character
      on exactly one side. */
  predicate Boundary(s: string, i: nat)
    requires i <= |s|
  {
    (i > 0 && IsWordChar(s[i - 1])) != (i < |s| && IsWordChar(s[i]))
  }

  /** `\bw\b` matches at `i` (the name taken literally). */
  predicate WholeWordAt(s: string, w: string, i: nat) {
    i + |w| <= |s| && s[i..i + |w|] == w && Boundary(s, i) && Boundary(s, i + |w|)
  }

  /** `re.sub(r'\bw\b', repl, s)` from index `i` on. Boundaries are judged on
      the original text; an empty name matches at every boundary. */
  function SubWordFrom(s: string, w: string, repl: string, i: nat): string
    requires i <= |s|
    decreases |s| - i
  {
    if WholeWordAt(s, w, i) then
      if |w| > 0 then repl + SubWordFrom(s, w, repl, i + |w|)
      else if i < |s| then repl + [s[i]] + SubWordFrom(s, w, repl, i + 1)
      else repl
    else if i < |s| then [s[i]] + SubWordFrom(s, w, repl, i + 1)
    else ""
  }

  function SubWord(s: string, w: string, repl: string): string
  {
    SubWordFrom(s, w, repl, 0)
  }

  /** End of the maximal run of characters that share the word-ness of `s[i]`. */
  function RunEnd(s: string, i: nat): (k: nat)
    requires i < |s|
    ensures i < k <= |s|
    ensures forall j :: i <= j < k ==> IsWordChar(s[j]) == IsWordChar(s[i])
    ensures k < |s| ==> IsWordChar(s[k]) != IsWordChar(s[i])
    decreases |s| - i
  {
    if i + 1 < |s| && IsWordChar(s[i + 1]) == IsWordChar(s[i]) then RunEnd(s, i + 1) else i + 1
  }

  /** The text cut into maximal runs of word and of non-word characters. */
  function RunsFrom(s: string, i: nat): seq<string>
    requires i <= |s|
    decreases |s| - i
  {
    if i == |s| then [] else [s[i..RunEnd(s, i)]] + RunsFrom(s, RunEnd(s, i))
  }

  function Runs(s: string): seq<string>
  {
    RunsFrom(s, 0)
  }

  /** Reference rewrite: every run equal to `w` becomes `repl`, every other run
      is kept as it is. */
  function RenameRuns(runs: seq<string>, w: string, repl: string): string
  {
    if |runs| == 0 then ""
    else (if runs[0] == w then repl else runs[0]) + RenameRuns(runs[1..], w, repl)
  }

  /** The runs of a text put back together give the text. */
  lemma {:induction false} RunsPartition(s: string, i: nat)
    requires i <= |s|
    ensures Flatten(RunsFrom(s, i)) == s[i..]
    decreases |s| - i
  {
    if i < |s| {
      var e := RunEnd(s, i);
      RunsPartition(s, e);
      assert s[i..] == s[i..e] + s[e..];
    }
  }

  /** `i` is where a run begins. */
  predicate RunStart(s: string, i: nat)
    requires i <= |s|
  {
    i == 0 || i == |s| || IsWordChar(s[i - 1]) != IsWordChar(s[i])
  }

  /** Inside a run that is not the name, the substitution copies characters. */
  lemma {:induction false} CopyRun(s: string, w: string, repl: string, i: nat, j: nat)
    requires IsIdent(w)
    requires i < |s| && RunStart(s, i) && i <= j <= RunEnd(s, i)
    requires s[i..RunEnd(s, i)] != w
    ensures SubWordFrom(s, w, repl, j) == s[j..RunEnd(s, i)] + SubWordFrom(s, w, repl, RunEnd(s, i))
    decreases RunEnd(s, i) - j
  {
    var e := RunEnd(s, i);
    if j < e {
      NoMatchInRun(s, w, i, j);
      CopyStep(s, w, repl, j);
      CopyRun(s, w, repl, i, j + 1);
      ConsSlice(s, j, e, SubWordFrom(s, w, repl, e));
    }
  }

  lemma ConsSlice(s: string, j: nat, e: nat, x: string)
    requires j < e <= |s|
    ensures [s[j]] + (s[j + 1..e] + x) == s[j..e] + x
  {
    assert s[j..e] == [s[j]] + s[j + 1..e];
  }

  /** Inside a run that is not the name, the name matches nowhere. */
  lemma NoMatchInRun(s: string, w: string, i: nat, j: nat)
    requires IsIdent(w)
    requires i < |s| && RunStart(s, i) && i <= j < RunEnd(s, i)
    requires s[i..RunEnd(s, i)] != w
    ensures !WholeWordAt(s, w, j)
  {
    if j == i {
      MatchAtRunStart(s, w, i);
    } else {
      assert !Boundary(s, j) by {
        assert IsWordChar(s[j - 1]) == IsWordChar(s[i]) == IsWordChar(s[j]);
      }
    }
  }

  /** Where the name does not match, one character is copied. */
  lemma {:induction false} CopyStep(s: string, w: string, repl: string, j: nat)
    requires j < |s| && !WholeWordAt(s, w, j)
    ensures SubWordFrom(s, w, repl, j) == [s[j]] + SubWordFrom(s, w, repl, j + 1)
  {
  }

  /** A whole-word match of an identifier at the start of a run is that run. */
  lemma MatchAtRunStart(s: string, w: string, i: nat)
    requires IsIdent(w)
    requires i < |s| && RunStart(s, i)
    ensures WholeWordAt(s, w, i) ==> s[i..RunEnd(s, i)] == w
  {
    if WholeWordAt(s, w, i) {
      var e := RunEnd(s, i);
      assert IsWordChar(s[i]) by { assert s[i] == w[0]; }
      forall k | i <= k < i + |w| ensures IsWordChar(s[k]) {
        assert s[k] == w[k - i];
      }
      assert i + |w| == e;
    }
  }

  /** Whole-word substitution of an identifier is run-by-run renaming: a run
      equal to the name is replaced and nothing else in the text changes. */
  lemma {:induction false} SubWordRenamesRuns(s: string, w: string, repl: string, i: nat)
    requires IsIdent(w)
    requires i <= |s| && RunStart(s, i)
    ensures SubWordFrom(s, w, repl, i) == RenameRuns(RunsFrom(s, i), w, repl)
    decreases |s| - i
  {
    if i < |s| {
      var e := RunEnd(s, i);
      assert RunStart(s, e);
      SubWordRenamesRuns(s, w, repl, e);
      RenameStep(s, w, repl, i);
      if s[i..e] == w {
        MatchRun(s, w, repl, i);
      } else {
        CopyRun(s, w, repl, i, i);
      }
    }
  }

  /** Renaming the runs from a run start: the first run, then the others. */
  lemma RenameStep(s: string, w: string, repl: string, i: nat)
    requires i < |s|
    ensures var e := RunEnd(s, i);
      RenameRuns(RunsFrom(s, i), w, repl)
        == (if s[i..e] == w then repl else s[i..e]) + RenameRuns(RunsFrom(s, e), w, repl)
  {
    var e := RunEnd(s, i);
    assert RunsFrom(s, i) == [s[i..e]] + RunsFrom(s, e);
    assert RunsFrom(s, i)[1..] == RunsFrom(s, e);
  }

  /** A run that is the name is replaced as a whole. */
  lemma MatchRun(s: string, w: string, repl: string, i: nat)
    requires IsIdent(w)
    requires i < |s| && RunStart(s, i) && s[i..RunEnd(s, i)] == w
    ensures SubWordFrom(s, w, repl, i) == repl + SubWordFrom(s, w, repl, RunEnd(s, i))
  {
    assert IsWordChar(s[i]) by { assert s[i] == w[0]; }
    assert WholeWordAt(s, w, i);
  }

  lemma SubWordIsRename(s: string, w: string, repl: string)
    requires IsIdent(w)
    ensures SubWord(s, w, repl) == RenameRuns(Runs(s), w, repl)
  {
    SubWordRenamesRuns(s, w, repl, 0);
  }

  /** A text in which the identifier is never a whole word is left unchanged. */
  lemma SubWordAbsent(s: string, w: string, repl: string)
    requires IsIdent(w)
    requires forall k :: 0 <= k < |Runs(s)| ==> Runs(s)[k] != w
    ensures SubWord(s, w, repl) == s
  {
    SubWordIsRename(s, w, repl);
    RenameNothing(Runs(s), w, repl);
    RunsPartition(s, 0);
  }

  lemma {:induction false} RenameNothing(runs: seq<string>, w: string, repl: string)
    requires forall k :: 0 <= k < |runs| ==> runs[k] != w
    ensures RenameRuns(runs, w, repl) == Flatten(runs)
    decreases |runs|
  {
    if |runs| > 0 {
      RenameNothing(runs[1..], w, repl);
    }
  }

  // ---------------------------------------------------------------------------
  // Texts assembled from runs

  /** Every character has the word-ness of the first, and there is one. */
  predicate Uniform(r: string) {
    |r| > 0 && forall j :: 0 <= j < |r| ==> IsWordChar(r[j]) == IsWordChar(r[0])
  }

  /** Pieces that are the maximal runs of their concatenation: each uniform,
      neighbours of opposite word-ness. */
  predicate WellRuns(rs: seq<string>) {
    (forall k :: 0 <= k < |rs| ==> Uniform(rs[k]))
    && forall k :: 0 < k < |rs| ==> IsWordChar(rs[k - 1][0]) != IsWordChar(rs[k][0])
  }

  /** The run from `i` ends at the first change of word-ness. */
  lemma RunEndAt(s: string, i: nat, k: nat)
    requires i < k <= |s|
    requires forall j :: i <= j < k ==> IsWordChar(s[j]) == IsWordChar(s[i])
    requires k < |s| ==> IsWordChar(s[k]) != IsWordChar(s[i])
    ensures RunEnd(s, i) == k
  {
  }

  /** Runs are found looking forward only: text in front of `b` does not
      change the runs of `b`. */
  lemma {:induction false} RunsShift(a: string, b: string, i: nat)
    requires i <= |b|
    ensures RunsFrom(a + b, |a| + i) == RunsFrom(b, i)
    decreases |b| - i
  {
    if i < |b| {
      var e := RunEnd(b, i);
      ShiftRunEnd(a, b, i);
      RunsShift(a, b, e);
      FirstRunShifted(a, b, i);
      assert RunsFrom(b, i) == [b[i..e]] + RunsFrom(b, e);
    }
  }

  lemma ShiftRunEnd(a: string, b: string, i: nat)
    requires i < |b|
    ensures RunEnd(a + b, |a| + i) == |a| + RunEnd(b, i)
  {
    var s := a + b;
    var e := RunEnd(b, i);
    forall j | |a| + i <= j < |a| + e ensures IsWordChar(s[j]) == IsWordChar(s[|a| + i]) {
      assert s[j] == b[j - |a|];
    }
    RunEndAt(s, |a| + i, |a| + e);
  }

  lemma FirstRunShifted(a: string, b: string, i: nat)
    requires i < |b| && RunEnd(a + b, |a| + i) == |a| + RunEnd(b, i)
    ensures var e := RunEnd(b, i);
      RunsFrom(a + b, |a| + i) == [b[i..e]] + RunsFrom(a + b, |a| + e)
  {
    var s := a + b;
    var e := RunEnd(b, i);
    assert s[|a| + i..|a| + e] == b[i..e];
  }

  /** Two well-formed run sequences whose meeting pieces differ in word-ness
      make one. */
  lemma WellAppend(a: seq<string>, b: seq<string>)
    requires WellRuns(a) && WellRuns(b)
    requires |a| > 0 && |b| > 0 ==> IsWordChar(a[|a| - 1][0]) != IsWordChar(b[0][0])
    ensures WellRuns(a + b)
  {
    var rs := a + b;
    forall k | 0 <= k < |rs| ensures Uniform(rs[k]) {
      if k < |a| { assert rs[k] == a[k]; } else { assert rs[k] == b[k - |a|]; }
    }
    forall k | 0 < k < |rs| ensures IsWordChar(rs[k - 1][0]) != IsWordChar(rs[k][0]) {
      if k < |a| {
        assert rs[k - 1] == a[k - 1] && rs[k] == a[k];
      } else if k == |a| {
        assert rs[k - 1] == a[|a| - 1] && rs[k] == b[0];
      } else {
        assert rs[k - 1] == b[k - 1 - |a|] && rs[k] == b[k - |a|];
      }
    }
  }

  lemma WellTail(rs: seq<string>)
    requires WellRuns(rs) && |rs| > 0
    ensures WellRuns(rs[1..])
  {
    var t := rs[1..];
    forall k | 0 < k < |t| ensures IsWordChar(t[k - 1][0]) != IsWordChar(t[k][0]) {
      assert t[k - 1] == rs[k] && t[k] == rs[k + 1];
    }
  }

  /** The runs of a text are well formed, and the first starts with the text. */
  lemma {:induction false} RunsWellFrom(s: string, i: nat)
    requires i <= |s|
    ensures WellRuns(RunsFrom(s, i))
    ensures i < |s| ==> |RunsFrom(s, i)| > 0 && RunsFrom(s, i)[0][0] == s[i]
    decreases |s| - i
  {
    if i < |s| {
      var e := RunEnd(s, i);
      var r := s[i..e];
      RunsWellFrom(s, e);
      assert Uniform(r) by {
        forall j | 0 <= j < |r| ensures IsWordChar(r[j]) == IsWordChar(r[0]) {
          assert r[j] == s[i + j];
        }
      }
      WellAppend([r], RunsFrom(s, e));
      assert RunsFrom(s, i) == [r] + RunsFrom(s, e);
    }
  }

  /** Well-formed runs put together are cut back into the same runs. */
  lemma {:induction false} RunsOfConcat(rs: seq<string>)
    requires WellRuns(rs)
    ensures Runs(Flatten(rs)) == rs
    decreases |rs|
  {
    if |rs| > 0 {
      var t := Flatten(rs[1..]);
      assert Flatten(rs) == rs[0] + t;
      WellTail(rs);
      RunsOfConcat(rs[1..]);
      if |rs| > 1 {
        FlattenHead(rs[1..]);
      } else {
        assert t == "";
      }
      FirstRunWhole(rs[0], t);
      RunsShift(rs[0], t, 0);
    }
  }

  /** A uniform piece followed by text of the other word-ness is the first
      run of the whole. */
  lemma FirstRunWhole(a: string, t: string)
    requires Uniform(a) && (|t| > 0 ==> IsWordChar(t[0]) != IsWordChar(a[0]))
    ensures RunsFrom(a + t, 0) == [a] + RunsFrom(a + t, |a| + 0)
  {
    var s := a + t;
    forall j | 0 <= j < |a| ensures IsWordChar(s[j]) == IsWordChar(s[0]) {
      assert s[j] == a[j];
    }
    RunEndAt(s, 0, |a|);
    assert s[0..|a|] == a;
  }

  lemma FlattenHead(rs: seq<string>)
    requires |rs| > 0 && |rs[0]| > 0
    ensures |Flatten(rs)| > 0 && Flatten(rs)[0] == rs[0][0]
  {
  }

  lemma {:induction false} RenameAppend(a: seq<string>, b: seq<string>, w: string, repl: string)
    ensures RenameRuns(a + b, w, repl) == RenameRuns(a, w, repl) + RenameRuns(b, w, repl)
    decreases |a|
  {
    if |a| > 0 {
      assert (a + b)[1..] == a[1..] + b;
      RenameAppend(a[1..], b, w, repl);
    } else {
      assert a + b == b;
    }
  }

  lemma Single(x: string, w: string, repl: string)
    ensures Flatten([x]) == x
    ensures RenameRuns([x], w, repl) == if x == w then repl else x
  {
    assert [x][1..] == [];
  }

  /** Every run equal to `w` replaced by the pieces `parts`. */
  function Splice(rs: seq<string>, w: string, parts: seq<string>): seq<string>
  {
    if |rs| == 0 then [] else (if rs[0] == w then parts else [rs[0]]) + Splice(rs[1..], w, parts)
  }

  /** Renaming to a text is splicing in its pieces. */
  lemma {:induction false} RenameIsSplice(rs: seq<string>, w: string, parts: seq<string>)
    ensures RenameRuns(rs, w, Flatten(parts)) == Flatten(Splice(rs, w, parts))
    decreases |rs|
  {
    if |rs| > 0 {
      var head := if rs[0] == w then parts else [rs[0]];
      RenameIsSplice(rs[1..], w, parts);
      FlattenAppend(head, Splice(rs[1..], w, parts));
      Single(rs[0], w, Flatten(parts));
    }
  }

  /** Splicing word-delimited pieces in place of a word keeps the runs well
      formed, and the first piece keeps the word-ness of the first run. */
  lemma {:induction false} SpliceWell(rs: seq<string>, w: string, parts: seq<string>)
    requires WellRuns(rs) && WellRuns(parts) && |parts| > 0 && IsIdent(w)
    requires IsWordChar(parts[0][0]) && IsWordChar(parts[|parts| - 1][0])
    ensures WellRuns(Splice(rs, w, parts))
    ensures |rs| > 0 ==> |Splice(rs, w, parts)| > 0 && IsWordChar(Splice(rs, w, parts)[0][0]) == IsWordChar(rs[0][0])
    decreases |rs|
  {
    if |rs| > 0 {
      var head := if rs[0] == w then parts else [rs[0]];
      var tail := Splice(rs[1..], w, parts);
      WellTail(rs);
      SpliceWell(rs[1..], w, parts);
      if rs[0] == w {
        assert IsWordChar(rs[0][0]) by { assert rs[0][0] == w[0]; }
      }
      if |rs| > 1 {
        assert IsWordChar(tail[0][0]) == IsWordChar(rs[1][0]);
        assert IsWordChar(rs[0][0]) != IsWordChar(rs[1][0]);
      }
      WellAppend(head, tail);
      assert Splice(rs, w, parts) == head + tail;
    }
  }

  /** Renaming after a splice: the spliced pieces are renamed in place. */
  lemma {:induction false} RenameSplice(rs: seq<string>, w: string, parts: seq<string>, repl: string)
    ensures RenameRuns(Splice(rs, w, parts), w, repl) == RenameRuns(rs, w, RenameRuns(parts, w, repl))
    decreases |rs|
  {
    if |rs| > 0 {
      var head := if rs[0] == w then parts else [rs[0]];
      RenameSplice(rs[1..], w, parts, repl);
      RenameAppend(head, Splice(rs[1..], w, parts), w, repl);
      Single(rs[0], w, repl);
    }
  }

  /** Two whole-word substitutions of the same identifier in a row: the first
      puts `Flatten(parts)` where the name was, the second then sees those
      pieces as runs of their own, so it renames the name inside them and
      nothing it did not rename before. */
  lemma SubWordTwice(s: string, w: string, parts: seq<string>, repl: string)
    requires IsIdent(w) && WellRuns(parts) && |parts| > 0
    requires IsWordChar(parts[0][0]) && IsWordChar(parts[|parts| - 1][0])
    ensures SubWord(SubWord(s, w, Flatten(parts)), w, repl) == RenameRuns(Runs(s), w, RenameRuns(parts, w, repl))
  {
    var rs := Runs(s);
    var spliced := Splice(rs, w, parts);
    SubWordIsRename(s, w, Flatten(parts));
    RenameIsSplice(rs, w, parts);
    RunsWellFrom(s, 0);
    SpliceWell(rs, w, parts);
    RunsOfConcat(spliced);
    SubWordIsRename(Flatten(spliced), w, repl);
    RenameSplice(rs, w, parts, repl);
  }

  // ---------------------------------------------------------------------------
  // require\((.*?)\);

  /** Lazy `(.*?)\);` from index `j`: the first ");" reached before any
      newline, as the index of its ')'. */
  function CloseFrom(s: string, j: nat): (r: Option<nat>)
    requires j <= |s|
    ensures r.Some? ==> j <= r.value && r.value + 2 <= |s| && s[r.value..r.value + 2] == ");"
                        && forall k :: j <= k < r.value ==> s[k] != '\n'
    decreases |s| - j
  {
    if j + 2 <= |s| && s[j..j + 2] == ");" then Some(j)
    else if j < |s| && s[j] != '\n' then CloseFrom(s, j + 1)
    else None
  }

  /** Length of the match of `require\((.*?)\);` at the start of `s`. */
  function RequireMatchLen(s: string): (r: Option<nat>)
    ensures r.Some? ==> 10 <= r.value <= |s| && StartsWith(s, "require(")
                        && s[r.value - 2..r.value] == ");"
  {
    if StartsWith(s, "require(") then
      match CloseFrom(s, 8)
      case None => None
      case Some(c) => Some(c + 2)
    else None
  }

  /** `re.sub(r'require\((.*?)\);', r'require(\1);', s)`. */
  function RequireSub(s: string): string
    decreases |s|
  {
    if |s| == 0 then ""
    else match RequireMatchLen(s)
      case Some(n) => "require(" + s[8..n - 2] + ");" + RequireSub(s[n..])
      case None => [s[0]] + RequireSub(s[1..])
  }

  /** The require rewrite puts back exactly what it matched: it is the identity. */
  lemma {:induction false} RequireSubIdentity(s: string)
    ensures RequireSub(s) == s
    decreases |s|
  {
    if |s| > 0 {
      match RequireMatchLen(s)
      case Some(n) =>
        RequireSubIdentity(s[n..]);
        RebuildMatch(s, n);
      case None =>
        RequireSubIdentity(s[1..]);
        assert s == [s[0]] + s[1..];
    }
  }

  /** A matched `require(...);` put back together is the matched text. */
  lemma RebuildMatch(s: string, n: nat)
    requires 10 <= n <= |s| && StartsWith(s, "require(") && s[n - 2..n] == ");"
    ensures "require(" + s[8..n - 2] + ");" + s[n..] == s
  {
    assert s[..8] == "require(";
    assert s[..n] == s[..8] + s[8..n - 2] + s[n - 2..n];
    assert s == s[..n] + s[n..];
  }
}

=== FILE: text.dfy ===
/**
 The handful of Python `str` operations the transpiler is built from:
 `strip`, `split()` on whitespace, `split(sep)`, `sep.join`, `replace`,
 `in` and `capitalize`, restricted to ASCII characters.
 */
module Text {
  import opened Wrappers

  /** `str.isspace()` on the ASCII range: space, \t, \n, \v, \f, \r and the
      four separators \x1c-\x1f. */
  predicate IsSpace(c: char) {
    c == ' ' || c == '\t' || c == '\n' || c == '\r' || c == '\U{000B}' || c == '\U{000C}'
    || ('\U{001C}' <= c <= '\U{001F}')
  }

  /** The regular-expression class `\w` on the ASCII range. */
  predicate IsWordChar(c: char) {
    ('a' <= c <= 'z') || ('A' <= c <= 'Z') || ('0' <= c <= '9') || c == '_'
  }

  predicate AllSpace(s: string) {
    forall i :: 0 <= i < |s| ==> IsSpace(s[i])
  }

  /** A non-empty run of non-whitespace characters: one element of `str.split()`. */
  predicate IsToken(w: string) {
    |w| > 0 && forall i :: 0 <= i < |w| ==> !IsSpace(w[i])
  }

  /** A non-empty run of `\w` characters: what the pattern `\w+` captures. */
  predicate IsIdent(w: string) {
    |w| > 0 && forall i :: 0 <= i < |w| ==> IsWordChar(w[i])
  }

  /** Neither end is whitespace: a fixed point of `str.strip()`. */
  predicate IsStripped(s: string) {
    |s| == 0 || (!IsSpace(s[0]) && !IsSpace(s[|s| - 1]))
  }

  predicate StartsWith(s: string, p: string) {
    |p| <= |s| && s[..|p|] == p
  }

  /** `p` occurs in `s` starting at index `i`. */
  predicate Occurs(s: string, p: string, i: int) {
    0 <= i && i + |p| <= |s| && s[i..i + |p|] == p
  }

  // ---------------------------------------------------------------------------
  // Searching

  /** The first index at or after `i` where `p` occurs, as `str.find(p, i)`. */
  function FindFrom(s: string, p: string, i: nat): (r: Option<nat>)
    requires |p| > 0 && i <= |s|
    ensures r.Some? ==> i <= r.value && Occurs(s, p, r.value)
    ensures forall j :: i <= j && (r.None? || j < r.value) ==> !Occurs(s, p, j)
    decreases |s| - i
  {
    if i + |p| > |s| then None
    else if s[i..i + |p|] == p then Some(i)
    else FindFrom(s, p, i + 1)
  }

  function Find(s: string, p: string): Option<nat>
    requires |p| > 0
  {
    FindFrom(s, p, 0)
  }

  /** Python's `p in s` for a non-empty `p`. */
  predicate Contains(s: string, p: string)
    requires |p| > 0
  {
    Find(s, p).Some?
  }

  /** `Find` returns exactly the first occurrence. */
  lemma FindFirst(s: string, p: string, i: nat)
    requires |p| > 0
    requires Occurs(s, p, i)
    requires forall j :: 0 <= j < i ==> !Occurs(s, p, j)
    ensures Find(s, p) == Some(i)
  {
  }

  lemma FindFromFirst(s: string, p: string, i: nat, e: nat)
    requires |p| > 0 && i <= e <= |s|
    requires Occurs(s, p, e)
    requires forall j :: i <= j < e ==> !Occurs(s, p, j)
    ensures FindFrom(s, p, i) == Some(e)
  {
  }

  lemma FindNone(s: string, p: string)
    requires |p| > 0
    requires forall j :: 0 <= j <= |s| ==> !Occurs(s, p, j)
    ensures Find(s, p) == None
  {
  }

  /** A one-character separator is found at the first position holding it. */
  lemma FindChar(a: string, c: char, b: string)
    requires c !in a
    ensures Find(a + [c] + b, [c]) == Some(|a|)
  {
    var s := a + [c] + b;
    assert Occurs(s, [c], |a|);
    forall j | 0 <= j < |a|
      ensures !Occurs(s, [c], j)
    {
      assert s[j] == a[j];
    }
    FindFirst(s, [c], |a|);
  }

  lemma FindCharAbsent(a: string, c: char)
    requires c !in a
    ensures Find(a, [c]) == None
  {
    forall j | 0 <= j <= |a|
      ensures !Occurs(a, [c], j)
    {
      if j < |a| {
        assert a[j..j + 1] == [a[j]];
      }
    }
    FindNone(a, [c]);
  }

  // ---------------------------------------------------------------------------
  // Flattening

  /** The pieces concatenated in order: `''.join(parts)` on texts, and the
      output lines of a list of line blocks. */
  function Flatten<T>(parts: seq<seq<T>>): seq<T>
  {
    if |parts| == 0 then [] else parts[0] + Flatten(parts[1..])
  }

  lemma {:induction false} FlattenAppend<T>(a: seq<seq<T>>, b: seq<seq<T>>)
    ensures Flatten(a + b) == Flatten(a) + Flatten(b)
    decreases |a|
  {
    if |a| > 0 {
      assert (a + b)[1..] == a[1..] + b;
      FlattenAppend(a[1..], b);
    } else {
      assert a + b == b;
    }
  }

  // ---------------------------------------------------------------------------
  // Split, join, replace

  /** `sep.join(parts)`. */
  function Join(sep: string, parts: seq<string>): string
  {
    if |parts| == 0 then ""
    else if |parts| == 1 then parts[0]
    else parts[0] + sep + Join(sep, parts[1..])
  }

  /** `s.split(sep)` for a non-empty separator: cut at every occurrence,
      scanning left to right without overlaps. */
  function Split(s: string, sep: string): (parts: seq<string>)
    requires |sep| > 0
    ensures |parts| > 0
    decreases |s|
  {
    match Find(s, sep)
    case None => [s]
    case Some(i) => [s[..i]] + Split(s[i + |sep|..], sep)
  }

  /** No piece of a split on one character holds that character. */
  lemma {:induction false} SplitPartsLackSep(s: string, c: char)
    ensures forall k :: 0 <= k < |Split(s, [c])| ==> c !in Split(s, [c])[k]
    decreases |s|
  {
    match Find(s, [c])
    case None =>
      NoCharBefore(s, [c], |s|);
      assert s[..|s|] == s;
    case Some(i) =>
      NoCharBefore(s, [c], i);
      SplitAt(s, [c], i);
      SplitPartsLackSep(s[i + 1..], c);
  }

  /** Where a one-character pattern does not occur, its character is absent. */
  lemma NoCharBefore(s: string, sep: string, i: nat)
    requires |sep| == 1 && i <= |s|
    requires forall j :: 0 <= j < i ==> !Occurs(s, sep, j)
    ensures sep[0] !in s[..i]
  {
    forall j | 0 <= j < i ensures s[j] != sep[0] {
      assert s[j..j + 1] == [s[j]];
      assert !Occurs(s, sep, j);
    }
  }

  /** `s.replace(p, r)` for a non-empty pattern. */
  function ReplaceAll(s: string, p: string, r: string): (out: string)
    requires |p| > 0
    ensures r == p ==> out == s
    ensures |r| == |p| ==> |out| == |s|
    decreases |s|
  {
    match Find(s, p)
    case None => s
    case Some(i) => s[..i] + r + ReplaceAll(s[i + |p|..], p, r)
  }

  /** One step of the replacement: the text before the first occurrence,
      the replacement, and the rest replaced in turn. */
  lemma {:induction false} ReplaceAt(s: string, p: string, r: string, i: nat)
    requires |p| > 0 && Find(s, p) == Some(i)
    ensures i + |p| <= |s|
    ensures ReplaceAll(s, p, r) == s[..i] + r + ReplaceAll(s[i + |p|..], p, r)
  {
    assert Occurs(s, p, i);
  }

  /** Where part `k` starts in `sep.join(parts)`: after the parts before it,
      each followed by the separator. */
  function JoinOffset(sep: string, parts: seq<string>, k: nat): nat
    requires k <= |parts|
  {
    if k == 0 then 0 else |Join(sep, parts[..k])| + |sep|
  }

  /** Part `k` of a join sits, whole, at its offset. */
  lemma {:induction false} JoinPartAt(sep: string, parts: seq<string>, k: nat)
    requires k < |parts|
    ensures var o := JoinOffset(sep, parts, k);
      o + |parts[k]| <= |Join(sep, parts)| && Join(sep, parts)[o..o + |parts[k]|] == parts[k]
    decreases k
  {
    var whole := Join(sep, parts);
    if |parts| > 1 {
      assert whole == parts[0] + (sep + Join(sep, parts[1..]));
    }
    if k > 0 {
      var tail := parts[1..];
      JoinPartAt(sep, tail, k - 1);
      if k == 1 {
        assert parts[..1] == [parts[0]];
      } else {
        assert parts[..k][1..] == tail[..k - 1];
      }
      assert JoinOffset(sep, parts, k) == |parts[0]| + |sep| + JoinOffset(sep, tail, k - 1);
    }
  }

  /** One step of the split: the text before the first separator, then the
      split of the rest. */
  lemma {:induction false} SplitAt(s: string, sep: string, i: nat)
    requires |sep| > 0 && Find(s, sep) == Some(i)
    ensures i + |sep| <= |s|
    ensures Split(s, sep) == [s[..i]] + Split(s[i + |sep|..], sep)
  {
    assert Occurs(s, sep, i);
  }

  /** Joining the pieces of a split with the separator gives the text back. */
  lemma {:induction false} JoinSplit(s: string, sep: string)
    requires |sep| > 0
    ensures Join(sep, Split(s, sep)) == s
    decreases |s|
  {
    match Find(s, sep)
    case None =>
    case Some(i) =>
      var rest := s[i + |sep|..];
      JoinSplit(rest, sep);
      assert Split(s, sep) == [s[..i]] + Split(rest, sep);
      assert s == s[..i] + sep + rest;
  }

  /** Splitting a join on a one-character separator that no part contains
      gives the parts back. */
  lemma {:induction false} SplitJoin(parts: seq<string>, c: char)
    requires |parts| > 0
    requires forall k :: 0 <= k < |parts| ==> c !in parts[k]
    ensures Split(Join([c], parts), [c]) == parts
    decreases |parts|
  {
    if |parts| == 1 {
      FindCharAbsent(parts[0], c);
    } else {
      var tail := Join([c], parts[1..]);
      assert Join([c], parts) == parts[0] + [c] + tail;
      FindChar(parts[0], c, tail);
      assert (parts[0] + [c] + tail)[..|parts[0]|] == parts[0];
      assert (parts[0] + [c] + tail)[|parts[0]| + 1..] == tail;
      SplitJoin(parts[1..], c);
      assert parts == [parts[0]] + parts[1..];
    }
  }

  /** `s.replace(p, r) == r.join(s.split(p))`: replacing is splitting and
      re-joining with the replacement. */
  lemma {:induction false} ReplaceIsSplitJoin(s: string, p: string, r: string)
    requires |p| > 0
    ensures ReplaceAll(s, p, r) == Join(r, Split(s, p))
    decreases |s|
  {
    match Find(s, p)
    case None =>
    case Some(i) =>
      var rest := s[i + |p|..];
      ReplaceIsSplitJoin(rest, p, r);
      assert Split(s, p) == [s[..i]] + Split(rest, p);
  }

  // ---------------------------------------------------------------------------
  // Stripping

  /** Number of whitespace characters at the start. */
  function LeadingSpace(s: string): (n: nat)
    ensures n <= |s|
    ensures forall i :: 0 <= i < n ==> IsSpace(s[i])
    ensures n < |s| ==> !IsSpace(s[n])
    decreases |s|
  {
    if |s| > 0 && IsSpace(s[0]) then 1 + LeadingSpace(s[1..]) else 0
  }

  /** Number of whitespace characters at the end. */
  function TrailingSpace(s: string): (n: nat)
    ensures n <= |s|
    ensures forall i :: |s| - n <= i < |s| ==> IsSpace(s[i])
    ensures n < |s| ==> !IsSpace(s[|s| - n - 1])
    decreases |s|
  {
    if |s| > 0 && IsSpace(s[|s| - 1]) then 1 + TrailingSpace(s[..|s| - 1]) else 0
  }

  function TrimLeft(s: string): string
  {
    s[LeadingSpace(s)..]
  }

  function TrimRight(s: string): string
  {
    s[..|s| - TrailingSpace(s)]
  }

  /** `str.strip()`: the text between the leading and the trailing whitespace. */
  function Strip(s: string): (r: string)
    ensures IsStripped(r)
    ensures |r| == 0 <==> AllSpace(s)
    ensures IsStripped(s) ==> r == s
  {
    StripFacts(s);
    TrimRight(TrimLeft(s))
  }

  lemma StripFacts(s: string)
    ensures IsStripped(TrimRight(TrimLeft(s)))
    ensures |TrimRight(TrimLeft(s))| == 0 <==> AllSpace(s)
    ensures IsStripped(s) ==> TrimRight(TrimLeft(s)) == s
  {
    var a := LeadingSpace(s);
    var t := s[a..];
    var b := TrailingSpace(t);
    var r := t[..|t| - b];
    if a < |s| {
      assert t[0] == s[a];
      assert b < |t|;
      assert r[0] == t[0] && r[|r| - 1] == t[|t| - b - 1];
      assert !AllSpace(s) by { assert !IsSpace(s[a]); }
    }
    if IsStripped(s) && |s| > 0 {
      assert a == 0 && t == s;
      assert b == 0;
    }
  }

  lemma StripSpacePrefix(c: char, s: string)
    requires IsSpace(c)
    ensures Strip([c] + s) == Strip(s)
  {
    var cs := [c] + s;
    assert cs[1..] == s;
    assert LeadingSpace(cs) == 1 + LeadingSpace(s);
    assert TrimLeft(cs) == TrimLeft(s);
  }

  // ---------------------------------------------------------------------------
  // Whitespace tokens: str.split() with no argument

  /** Length of the leading run of non-whitespace characters. */
  function TokLen(s: string): (n: nat)
    ensures n <= |s|
    ensures forall i :: 0 <= i < n ==> !IsSpace(s[i])
    ensures n < |s| ==> IsSpace(s[n])
  {
    if |s| == 0 || IsSpace(s[0]) then 0 else 1 + TokLen(s[1..])
  }

  /** `s.split()`: the maximal runs of non-whitespace characters, in order. */
  function Words(s: string): seq<string>
    decreases |s|
  {
    if |s| == 0 then []
    else if IsSpace(s[0]) then Words(s[1..])
    else
      var n := TokLen(s);
      [s[..n]] + Words(s[n..])
  }

  /** Every word is a token. */
  lemma {:induction false} WordsAreTokens(s: string)
    ensures forall k :: 0 <= k < |Words(s)| ==> IsToken(Words(s)[k])
    decreases |s|
  {
    if |s| > 0 {
      if IsSpace(s[0]) {
        WordsSpaceStep(s);
        WordsAreTokens(s[1..]);
      } else {
        var n := TokLen(s);
        WordsTokenStep(s, n);
        WordsAreTokens(s[n..]);
        assert IsToken(s[..n]);
      }
    }
  }

  /** A text has no words exactly when it is all whitespace. */
  lemma {:induction false} WordsEmpty(s: string)
    ensures |Words(s)| == 0 <==> AllSpace(s)
    decreases |s|
  {
    if |s| > 0 {
      if IsSpace(s[0]) {
        WordsSpaceStep(s);
        WordsEmpty(s[1..]);
        if AllSpace(s[1..]) {
          forall i | 0 <= i < |s| ensures IsSpace(s[i]) { if i > 0 { assert s[i] == s[1..][i - 1]; } }
        }
      } else {
        WordsTokenStep(s, TokLen(s));
      }
    }
  }

  /** A token is its own only word. */
  lemma WordsOfToken(w: string)
    requires IsToken(w)
    ensures Words(w) == [w]
  {
    TokLenOfToken(w);
    assert w[..|w|] == w;
    assert Words(w[|w|..]) == [];
  }

  lemma {:induction false} TokLenOfToken(w: string)
    requires forall i :: 0 <= i < |w| ==> !IsSpace(w[i])
    ensures TokLen(w) == |w|
    decreases |w|
  {
    if |w| > 0 {
      TokLenOfToken(w[1..]);
    }
  }

  /** The leading token of `a` is unaffected by what follows a whitespace
      character after it. */
  lemma {:induction false} TokLenExtend(a: string, b: string)
    requires TokLen(a) < |a| || (|b| > 0 && IsSpace(b[0]))
    ensures TokLen(a + b) == TokLen(a)
    decreases |a|
  {
    if |a| == 0 {
      assert a + b == b;
    } else if !IsSpace(a[0]) {
      var ab := a + b;
      assert ab[0] == a[0];
      assert ab[1..] == a[1..] + b;
      TokLenExtend(a[1..], b);
    }
  }

  /** A whitespace character separates the words on its two sides. */
  lemma {:induction false} WordsAppend(a: string, c: char, b: string)
    requires IsSpace(c)
    ensures Words(a + [c] + b) == Words(a) + Words(b)
    decreases |a|
  {
    if |a| == 0 {
      var s := a + [c] + b;
      assert s[1..] == b;
      WordsSpaceStep(s);
    } else if IsSpace(a[0]) {
      WordsAppend(a[1..], c, b);
      AppendAfterSpace(a, c, b);
    } else {
      WordsAppend(a[TokLen(a)..], c, b);
      AppendAfterToken(a, c, b);
    }
  }

  lemma {:induction false} AppendAfterSpace(a: string, c: char, b: string)
    requires |a| > 0 && IsSpace(a[0])
    requires Words(a[1..] + [c] + b) == Words(a[1..]) + Words(b)
    ensures Words(a + [c] + b) == Words(a) + Words(b)
  {
    var s := a + [c] + b;
    assert s[1..] == a[1..] + [c] + b;
    WordsSpaceStep(s);
    WordsSpaceStep(a);
  }

  lemma {:induction false} AppendAfterToken(a: string, c: char, b: string)
    requires IsSpace(c) && |a| > 0 && !IsSpace(a[0])
    requires Words(a[TokLen(a)..] + [c] + b) == Words(a[TokLen(a)..]) + Words(b)
    ensures Words(a + [c] + b) == Words(a) + Words(b)
  {
    var s := a + ([c] + b);
    var n := TokLen(a);
    TokLenExtend(a, [c] + b);
    assert s[..n] == a[..n];
    assert s[n..] == a[n..] + [c] + b;
    WordsTokenStep(s, n);
    WordsTokenStep(a, n);
    ConsAssoc(a[..n], Words(a[n..]), Words(b));
    assert a + [c] + b == s;
  }

  lemma ConsAssoc(x: string, p: seq<string>, q: seq<string>)
    ensures [x] + (p + q) == ([x] + p) + q
  {
  }

  lemma {:induction false} WordsSpaceStep(s: string)
    requires |s| > 0 && IsSpace(s[0])
    ensures Words(s) == Words(s[1..])
  {
  }

  lemma {:induction false} WordsTokenStep(s: string, n: nat)
    requires |s| > 0 && !IsSpace(s[0]) && n == TokLen(s)
    ensures Words(s) == [s[..n]] + Words(s[n..])
  {
  }

  /** Splitting a single-space join of tokens gives the tokens back. */
  lemma {:induction false} WordsOfJoin(ws: seq<string>)
    requires forall k :: 0 <= k < |ws| ==> IsToken(ws[k])
    ensures Words(Join(" ", ws)) == ws
    decreases |ws|
  {
    if |ws| == 1 {
      WordsOfToken(ws[0]);
    } else if |ws| > 1 {
      WordsOfToken(ws[0]);
      WordsAppend(ws[0], ' ', Join(" ", ws[1..]));
      assert Join(" ", ws) == ws[0] + [' '] + Join(" ", ws[1..]);
      WordsOfJoin(ws[1..]);
      assert ws == [ws[0]] + ws[1..];
    }
  }

  /** A single-space join of tokens has no surrounding whitespace. */
  lemma {:induction false} JoinTokensStripped(ws: seq<string>)
    requires forall k :: 0 <= k < |ws| ==> IsToken(ws[k])
    ensures |ws| > 0 ==> |Join(" ", ws)| > 0
    ensures IsStripped(Join(" ", ws))
    decreases |ws|
  {
    if |ws| > 1 {
      JoinTokensStripped(ws[1..]);
    }
  }

  /** Surrounding whitespace does not change the words. */
  lemma WordsStrip(s: string)
    ensures Words(Strip(s)) == Words(s)
  {
    var t := TrimLeft(s);
    var r := TrimRight(t);
    WordsTrimLeft(s);
    WordsTrimRight(t);
  }

  lemma {:induction false} WordsTrimLeft(s: string)
    ensures Words(TrimLeft(s)) == Words(s)
    decreases |s|
  {
    if |s| > 0 && IsSpace(s[0]) {
      WordsTrimLeft(s[1..]);
      assert TrimLeft(s) == TrimLeft(s[1..]);
    } else {
      assert TrimLeft(s) == s;
    }
  }

  lemma {:induction false} WordsTrimRight(s: string)
    ensures Words(TrimRight(s)) == Words(s)
    decreases |s|
  {
    if |s| > 0 && IsSpace(s[|s| - 1]) {
      var a := s[..|s| - 1];
      WordsTrimRight(a);
      assert TrimRight(s) == TrimRight(a);
      WordsAppend(a, s[|s| - 1], "");
      assert s == a + [s[|s| - 1]] + "";
    } else {
      assert TrimRight(s) == s;
    }
  }

  // ---------------------------------------------------------------------------
  // Case

  function ToUpper(c: char): char {
    if 'a' <= c <= 'z' then (c as int - 32) as char else c
  }

  function ToLower(c: char): char {
    if 'A' <= c <= 'Z' then (c as int + 32) as char else c
  }

  function LowerAll(s: string): (r: string)
    ensures |r| == |s|
    ensures forall i :: 0 <= i < |s| ==> r[i] == ToLower(s[i])
  {
    if |s| == 0 then "" else [ToLower(s[0])] + LowerAll(s[1..])
  }

  /** `str.capitalize()`: the first character upper-cased and the rest
      lower-cased, so the result equals the input up to case. */
  function Capitalize(s: string): (r: string)
    ensures |r| == |s|
    ensures |r| > 0 ==> !('a' <= r[0] <= 'z')
    ensures forall i :: 0 < i < |r| ==> !('A' <= r[i] <= 'Z')
    ensures forall i :: 0 <= i < |s| ==> ToLower(r[i]) == ToLower(s[i])
  {
    if |s| == 0 then "" else [ToUpper(s[0])] + LowerAll(s[1..])
  }

  /** Capitalizing twice is capitalizing once. */
  lemma CapitalizeIdempotent(s: string)
    ensures Capitalize(Capitalize(s)) == Capitalize(s)
  {
    var r := Capitalize(s);
    var rr := Capitalize(r);
    assert |rr| == |r|;
    forall i | 0 <= i < |r| ensures rr[i] == r[i] {
      if i == 0 { assert rr[0] == ToUpper(r[0]); } else { assert rr[i] == ToLower(r[i]); }
    }
  }
}

=== FILE: types.dfy ===
/**
 `TactGenerator`'s type conversion: Solidity type names to Tact type names.
 */
module TypeMap {
  import opened Wrappers
  import opened Text

  /** `TYPE_MAPPING`: the Solidity base types that have a Tact counterpart. */
  const TypeMapping: map<string, string> := map[
    "uint256" := "Int as uint256",
    "uint" := "Int as uint256",
    "int" := "Int",
    "bool" := "Bool",
    "address" := "Address",
    "string" := "String",
    "bytes" := "Cell",
    "uint8" := "Int as uint8",
    "uint128" := "Int as uint128"
  ]

  /** `TYPE_MAPPING.get(base, base)`: a base type without a counterpart is
      passed through under its own name. */
  function MapBase(base: string): (t: string)
  {
    if base in TypeMapping then TypeMapping[base] else base
  }

  /** The element type: every `[]` removed, then stripped. */
  function BaseType(t: string): string
  {
    Strip(ReplaceAll(t, "[]", ""))
  }

  /** `_convert_type`: an array type of any depth becomes a single
      `map<Int, …>` over its converted element type; any other type is its
      stripped name looked up in the mapping. */
  function ConvertType(t: string): string
  {
    var mapped := MapBase(BaseType(t));
    if Contains(t, "[]") then "map<Int, " + mapped + ">" else mapped
  }

  /** What `_convert_type` gives, case by case: the mapped name of a plain
      type, its own stripped name when it has no counterpart, and a `map`
      type for an array, whose element type is the conversion of the text
      left once every `[]` is removed (when that text holds no `[]` itself). */
  lemma ConvertShape(t: string)
    ensures !Contains(t, "[]") && Strip(t) in TypeMapping ==> ConvertType(t) == TypeMapping[Strip(t)]
    ensures !Contains(t, "[]") && Strip(t) !in TypeMapping ==> ConvertType(t) == Strip(t)
    ensures Contains(t, "[]") ==> StartsWith(ConvertType(t), "map<Int, ") && ConvertType(t)[|ConvertType(t)| - 1] == '>'
    ensures Contains(t, "[]") && !Contains(BaseType(t), "[]") ==>
      ConvertType(t) == "map<Int, " + ConvertType(BaseType(t)) + ">"
  {
    if Contains(t, "[]") {
      var r := ConvertType(t);
      assert r[..9] == "map<Int, ";
      if !Contains(BaseType(t), "[]") {
        ElementConverts(BaseType(t));
      }
    }
  }

  /** A stripped element type without `[]` converts through the mapping alone. */
  lemma ElementConverts(b: string)
    requires !Contains(b, "[]") && IsStripped(b)
    ensures ConvertType(b) == MapBase(b)
  {
    assert ReplaceAll(b, "[]", "") == b;
  }

  /** No value of the mapping is itself a key, holds `[]` or has surrounding
      whitespace. */
  lemma MappedNamesAreFinal(base: string)
    requires base in TypeMapping
    ensures TypeMapping[base] !in TypeMapping
    ensures !Contains(TypeMapping[base], "[]")
    ensures IsStripped(TypeMapping[base])
  {
    ValueShape(base);
    FinalName(TypeMapping[base]);
  }

  /** Every value of the mapping is a capitalised name without brackets that
      ends in a letter or digit. */
  lemma ValueShape(base: string)
    requires base in TypeMapping
    ensures var v := TypeMapping[base];
      |v| > 0 && 'A' <= v[0] <= 'Z' && '[' !in v && !IsSpace(v[|v| - 1])
  {
  }

  /** Every key of the mapping starts with a lower-case letter. */
  lemma KeysAreLowerCase(k: string)
    requires k in TypeMapping
    ensures |k| > 0 && 'a' <= k[0] <= 'z'
  {
  }

  /** A capitalised name without brackets and without trailing whitespace is
      a final Tact name. */
  lemma FinalName(v: string)
    requires |v| > 0 && 'A' <= v[0] <= 'Z' && '[' !in v && !IsSpace(v[|v| - 1])
    ensures v !in TypeMapping && !Contains(v, "[]") && IsStripped(v)
  {
    if v in TypeMapping {
      KeysAreLowerCase(v);
    }
    NoBracketPair(v);
  }

  /** A text without a `[` holds no `[]`. */
  lemma NoBracketPair(s: string)
    requires '[' !in s
    ensures !Contains(s, "[]")
  {
    forall j | 0 <= j <= |s| ensures !Occurs(s, "[]", j) {
      if j + 2 <= |s| {
        assert s[j..j + 2][0] == s[j];
      }
    }
    FindNone(s, "[]");
  }

  /** `[]` occurs in `s` exactly where a `[` is followed by a `]`. */
  lemma OccursPair(s: string, j: int)
    ensures Occurs(s, "[]", j) <==> 0 <= j && j + 1 < |s| && s[j] == '[' && s[j + 1] == ']'
  {
    if 0 <= j && j + 1 < |s| {
      assert s[j..j + 2] == [s[j], s[j + 1]];
    }
  }

  /** Wrapping an element type that holds no `[]` in `map<Int, …>` adds none. */
  lemma MapTypeHasNoPair(v: string)
    requires !Contains(v, "[]")
    ensures !Contains("map<Int, " + v + ">", "[]")
  {
    var s := "map<Int, " + v + ">";
    forall j | 0 <= j <= |s| ensures !Occurs(s, "[]", j) {
      OccursPair(s, j);
      if 9 <= j && j + 1 < 9 + |v| {
        OccursPair(v, j - 9);
        FindFromNoneAt(v, j - 9);
      }
    }
    FindNone(s, "[]");
  }

  lemma FindFromNoneAt(v: string, j: nat)
    requires !Contains(v, "[]")
    ensures !Occurs(v, "[]", j)
  {
  }

  /** In an element type that holds no `[]` followed by `[]`, the first `[]`
      is the appended one. */
  lemma FindAppendedPair(t: string, tail: string)
    requires !Contains(t, "[]")
    ensures Find(t + "[]" + tail, "[]") == Some(|t|)
  {
    var s := t + "[]" + tail;
    assert Occurs(s, "[]", |t|) by { assert s[|t|..|t| + 2] == "[]"; }
    forall j | 0 <= j < |t| ensures !Occurs(s, "[]", j) {
      OccursPair(s, j);
      OccursPair(t, j);
      FindFromNoneAt(t, j);
      if j + 1 < |t| {
        assert s[j] == t[j] && s[j + 1] == t[j + 1];
      } else {
        assert s[j + 1] == '[';
      }
    }
    FindFirst(s, "[]", |t|);
  }

  /** Removing every `[]` from `T[]` followed by more text: `T` stays, and the
      rest is processed on its own. */
  lemma RemoveAppendedPair(t: string, tail: string)
    requires !Contains(t, "[]")
    ensures Contains(t + "[]" + tail, "[]")
    ensures ReplaceAll(t + "[]" + tail, "[]", "") == t + ReplaceAll(tail, "[]", "")
  {
    var s := t + "[]" + tail;
    FindAppendedPair(t, tail);
    assert s[..|t|] == t && s[|t| + 2..] == tail;
    ReplaceAt(s, "[]", "", |t|);
    assert t + "" == t;
  }

  /** Arrays compose: `T[]` is `map<Int, ConvertType(T)>` for an element
      type `T` that is not itself an array. */
  lemma ConvertArray(t: string)
    requires !Contains(t, "[]")
    ensures ConvertType(t + "[]") == "map<Int, " + ConvertType(t) + ">"
  {
    RemoveAppendedPair(t, "");
    assert t + "[]" + "" == t + "[]";
    assert ReplaceAll("", "[]", "") == "";
    assert t + "" == t;
    assert ReplaceAll(t, "[]", "") == t;
  }

  /** Text written after the `[]` of an array type, such as a data location,
      stays inside the element type. */
  lemma ArrayWithSuffix(t: string, tail: string)
    requires !Contains(t, "[]") && !Contains(tail, "[]")
    requires IsStripped(t + tail)
    ensures ConvertType(t + "[]" + tail) == "map<Int, " + MapBase(t + tail) + ">"
  {
    RemoveAppendedPair(t, tail);
    assert ReplaceAll(tail, "[]", "") == tail;
  }

  /** An array of a plain type with a data location after it, such as
      `uint256[] memory`: the location stays inside the element type, which
      is then no key of the mapping, so even a mapped base type is not
      mapped (`map<Int, uint256 memory>`). */
  lemma ArrayWithLocation(b: string, loc: string)
    requires |b| > 0 && !IsSpace(b[0]) && '[' !in b && ' ' !in b && IsIdent(loc)
    ensures ConvertType(b + "[]" + (" " + loc)) == "map<Int, " + (b + (" " + loc)) + ">"
  {
    LocatedElement(b, loc);
    ArrayWithSuffix(b, " " + loc);
  }

  /** A name without `[` or spaces, a space and an identifier: no `[]` on
      either side of the space, no surrounding whitespace, and not a key. */
  lemma LocatedElement(b: string, loc: string)
    requires |b| > 0 && !IsSpace(b[0]) && '[' !in b && ' ' !in b && IsIdent(loc)
    ensures !Contains(b, "[]") && !Contains(" " + loc, "[]")
    ensures IsStripped(b + (" " + loc)) && b + (" " + loc) !in TypeMapping
  {
    var tail := " " + loc;
    var e := b + tail;
    NoBracketPair(b);
    assert '[' !in tail by {
      forall j | 0 <= j < |tail| ensures tail[j] != '[' {
        if j > 0 { assert tail[j] == loc[j - 1]; }
      }
    }
    NoBracketPair(tail);
    assert e[0] == b[0] && e[|e| - 1] == loc[|loc| - 1];
    assert IsWordChar(loc[|loc| - 1]);
    assert e[|b|] == ' ';
    SpacedNotKey(e, |b|);
  }

  lemma SpacedNotKey(e: string, i: nat)
    requires i < |e| && e[i] == ' '
    ensures e !in TypeMapping
  {
    if e in TypeMapping {
      KeyShape(e);
    }
  }

  /** Every key of the mapping is a lower-case name without `[` or spaces. */
  lemma KeyShape(k: string)
    requires k in TypeMapping
    ensures |k| > 0 && 'a' <= k[0] <= 'z' && '[' !in k && ' ' !in k
  {
  }

  /** Arrays do not nest: `T[][]` converts exactly like `T[]`, a single map. */
  lemma ConvertNestedArray(t: string)
    requires !Contains(t, "[]")
    ensures ConvertType(t + "[][]") == ConvertType(t + "[]")
  {
    RemoveAppendedPair(t, "[]");
    RemoveAppendedPair(t, "");
    assert t + "[]" + "[]" == t + "[][]";
    assert t + "[]" + "" == t + "[]";
    RemoveAppendedPair("", "");
    assert "" + "[]" + "" == "[]";
    assert ReplaceAll("", "[]", "") == "";
    assert t + "" == t;
  }

  /** Converted names are fixed points: converting an already converted type
      changes nothing, as long as removing `[]` left none behind. */
  lemma ConvertIdempotent(t: string)
    requires !Contains(BaseType(t), "[]")
    ensures ConvertType(ConvertType(t)) == ConvertType(t)
  {
    var m := MapBase(BaseType(t));
    MapBaseFinal(BaseType(t));
    if Contains(t, "[]") {
      MapTypeFinal(m);
      FixedPoint("map<Int, " + m + ">");
    } else {
      FixedPoint(m);
    }
  }

  /** A name with no `[]`, no surrounding whitespace and no entry in the
      mapping converts to itself. */
  lemma FixedPoint(x: string)
    requires !Contains(x, "[]") && IsStripped(x) && x !in TypeMapping
    ensures ConvertType(x) == x
  {
    assert ReplaceAll(x, "[]", "") == x;
  }

  /** Looking up a bracket-free stripped base type gives a final name. */
  lemma MapBaseFinal(b: string)
    requires !Contains(b, "[]") && IsStripped(b)
    ensures var m := MapBase(b); !Contains(m, "[]") && IsStripped(m) && m !in TypeMapping
  {
    if b in TypeMapping {
      MappedNamesAreFinal(b);
    } else {
      assert IsStripped(Strip(b));
    }
  }

  /** Every key of the mapping is at most seven characters long. */
  lemma KeysAreShort(k: string)
    requires k in TypeMapping
    ensures |k| <= 7
  {
  }

  /** A `map<Int, …>` over a final name is itself final. */
  lemma MapTypeFinal(m: string)
    requires !Contains(m, "[]") && IsStripped(m)
    ensures var r := "map<Int, " + m + ">"; !Contains(r, "[]") && IsStripped(r) && r !in TypeMapping
  {
    var r := "map<Int, " + m + ">";
    MapTypeHasNoPair(m);
    assert r[0] == 'm' && r[|r| - 1] == '>';
    if r in TypeMapping {
      KeysAreShort(r);
    }
  }

  /** A name without brackets and surrounding whitespace converts through the
      mapping alone. */
  lemma PlainName(t: string)
    requires '[' !in t && IsStripped(t)
    ensures ConvertType(t) == MapBase(t)
  {
    NoBracketPair(t);
  }
}

=== FILE: wrappers.dfy ===
/** The optional value used wherever the Python code returns `None` or a value. */
module Wrappers {

  datatype Option<+T> = None | Some(value: T)
}
